=== FILE: README.md ===
# Patient management: a Dafny model of `crudapp.py`

`crudapp.py` is a single-file Streamlit application that keeps patient records
in one SQLite table, `patients`. This project models its core as pure Dafny
values and functions, and proves what the code promises about them:

- **Validators** (`validators.dfy`): `is_valid_email` and `is_valid_phone`.
  Each regular expression is given as a declarative language (`EmailShape`,
  `PhoneShape`). An executable scanner is proved to decide exactly that
  language. The wrapper models Python's `re.match` with a trailing `$`, which
  also matches before one final newline. The email language is also proved
  equal to a description by parts: one `@`, a local part, and a domain whose
  last dot is followed by two or more letters.
- **Store** (`patients.dfy`): the table as a map from id to row, plus the next
  AUTOINCREMENT id. `add_patient`, `update_patient`, `delete_patient` and
  `get_patient_by_id` keep the SQLite constraints: NOT NULL names and email,
  and a UNIQUE email. They return the same `(success, error)` pair and the
  same messages. AUTOINCREMENT never hands out an id twice, even after a
  delete.
- **Queries** (`queries.dfy`, `sqllike.dfy`, `textorder.dfy`):
  `get_all_patients`, `search_patients`, `get_all_last_names` and
  `get_all_email_domains`. The search uses SQLite's `LIKE`, modelled in full:
  `%`, `_`, and ASCII-only case folding. Lemmas show what it amounts to for
  wildcard-free input: a substring test for the text query and a suffix test
  for the domain filter. Orderings are code-point lexicographic, which is
  both SQLite's BINARY collation and Python's `sorted` on strings.
- **Schema** (`migration.dfy`): `migrate_db` and `init_db`. They add the two
  date columns if missing and backfill `date_of_entry` with today's date,
  which is a parameter.
- **Forms** (`forms.dfy`): the add and edit forms' ordered error list, the
  submit handlers that strip every field before writing, and the select-box
  label `"{first} {last} (ID: {id})"` together with its parse back to an id.
- **Python helpers** (`strings.dfy`): `str.strip`, `str.split`,
  `str.replace` of one character, `int()` and `str()` on integers.

Points where the code behaves differently from what a reader might expect:

- `add_patient` returns `(True, None)`, not the new id.
- `update_patient` on an id with no row changes nothing and still returns
  `(True, None)`.
- The domain filter is `email LIKE '%@<domain>'`. So it ignores ASCII case,
  treats `%` and `_` in the domain as wildcards, and matches any email that
  ends with `@<domain>`. It is not an exact comparison with the part after
  the `@`.

## Model

| member | source | states |
|---|---|---|
| Validators.IsValidEmail | crudapp.py:157-160 | true exactly when the email pattern matches the whole string, or the string minus one trailing newline |
| Validators.MatchEmailShape | crudapp.py:159 | the three-phase scan accepts exactly the strings of the anchored email pattern |
| Validators.EmailShapeParts | crudapp.py:159 | the pattern's strings are exactly those with one `@`, a non-empty local part over `A-Za-z0-9._%+-`, and a domain over `A-Za-z0-9.-` whose last dot has text before it and two or more letters after it |
| Validators.EmailHasOneAt | crudapp.py:159 | an email the pattern accepts contains exactly one `@` |
| Validators.IsValidPhone | crudapp.py:162-165 | true exactly when the phone pattern matches, with or without one trailing newline; accepted strings have 10 to 17 characters |
| Validators.MatchPhoneShape | crudapp.py:164 | accepts exactly an optional `+` then 10 to 15 ASCII digits; no `+` appears after the first character |
| Validators.PhoneShapeBounds | crudapp.py:164 | a matching phone has 10 to 16 characters and no `+` after the first one |
| Patients.MissingRequired | crudapp.py:21-24 | no NOT NULL column is missing exactly when first name, last name and email are all present; otherwise names the first missing one in column order |
| Patients.MentionsUniqueEmail | crudapp.py:68 | only the UNIQUE-email violation's message contains the text the handler looks for |
| Patients.Reported | crudapp.py:67-70 | a UNIQUE-email violation is reported as "Email already exists."; a NOT NULL one with SQLite's own message |
| Patients.AddPatient | crudapp.py:57-72 | succeeds exactly when no required field is missing and no row has the email; then the new row gets the next id and the given fields, and the other rows are kept; on failure the store is unchanged and the error message is the one the handler returns |
| Patients.GetPatient | crudapp.py:82-88 | returns the row with that id when there is one, and `None` otherwise |
| Patients.UpdatePatient | crudapp.py:90-106 | an id with no row changes nothing and still succeeds; otherwise succeeds exactly when no required field is missing and no other row has the email; only that row changes, and it keeps its id |
| Patients.DeletePatient | crudapp.py:108-113 | removes exactly that id; other rows and the next id are unchanged |
| Patients.DeleteTwice | crudapp.py:108-113 | deleting the same id twice is the same as deleting it once |
| Patients.AddThenGet | crudapp.py:57-66 | after a successful add, looking up the new id gives a row with the submitted fields |
| Patients.UpdateThenGet | crudapp.py:90-100 | after a successful update, looking up the id gives a row with the new fields |
| Patients.Run | crudapp.py:20 | any sequence of adds, updates and deletes keeps the store valid, never lowers the next id, and never brings back an id below the old next id |
| Patients.DeletedIdStaysFree | crudapp.py:20 | after a delete, no later sequence of operations gives the deleted id to a row again |
| Queries.AllPatients | crudapp.py:74-80 | lists every row of the table and nothing else, in strictly descending id order |
| Queries.AllPatientsIsTheListing | crudapp.py:77 | any id-descending list of exactly the table's rows equals `get_all_patients` |
| Queries.AddedRowComesFirst | crudapp.py:77 | after a successful add, the new row heads the listing |
| Queries.SearchPatients | crudapp.py:115-134 | lists exactly the rows meeting every filter in force, newest first; a filter that is empty or `"All"` is not in force |
| Queries.SearchWithoutFilters | crudapp.py:118-130 | with no query and no filter in force, the search returns the whole listing |
| Queries.TextFilterIsSubstring | crudapp.py:120-123 | for a query without `%` or `_`, a row matches exactly when its first name, last name, email or non-NULL phone contains the query, ignoring ASCII case |
| Queries.DomainFilterIsSuffix | crudapp.py:127-129 | for a domain without `%` or `_`, the filter keeps exactly the emails ending in `@` plus the domain, ignoring ASCII case |
| Queries.AllLastNames | crudapp.py:136-142 | strictly increasing, and holds exactly the non-empty last names that some row has |
| Queries.AllLastNamesIsTheSortedSet | crudapp.py:139-142 | any strictly increasing list of exactly those names equals `get_all_last_names` |
| Queries.DomainOf | crudapp.py:151-152 | defined exactly for emails with an `@`; the piece taken holds no `@` |
| Queries.DomainOfBetweenAts | crudapp.py:152 | the domain is exactly the text between the first `@` and the next `@`, or the end of the email when there is no second one |
| Queries.DomainOfSingleAt | crudapp.py:152 | for an email with a single `@`, the domain is everything after it |
| Queries.AllEmailDomains | crudapp.py:144-153 | strictly increasing, and holds exactly the domains of the stored emails that contain `@` |
| Queries.OfferedDomainSelectsItsRows | crudapp.py:144-153 | the domain of a single-`@` email is offered in the domain list, and choosing it as the filter keeps that row |
| SqlLike.Like | crudapp.py:121-128 | `s LIKE p`: without `%` every pattern character takes exactly one text character, so the lengths agree; without `%` or `_` the pattern matches exactly the texts equal to it up to ASCII case |
| SqlLike.LikeContains | crudapp.py:122 | for `q` without `%` or `_`, `%q%` matches exactly the texts containing `q`, ignoring ASCII case |
| SqlLike.LikeEndsWith | crudapp.py:129 | `%` followed by a wildcard-free suffix matches exactly the texts ending in it, ignoring ASCII case |
| TextOrder.SortedDistinct | crudapp.py:149-153 | `sorted(set(...))`: strictly increasing, with the same members as the input |
| TextOrder.SortedUnique | crudapp.py:153 | two strictly increasing lists with the same members are equal |
| Strings.SplitOn | crudapp.py:152 | `split` gives at least one piece, at least two exactly when the separator occurs, and no piece contains the separator |
| Strings.JoinSplit | crudapp.py:152 | joining the pieces of a split with the separator gives back the string |
| Strings.Strip | crudapp.py:192-213 | the result is a slice of the input whose ends are not whitespace; it is empty exactly when the input is all whitespace |
| Strings.RemoveChar | crudapp.py:269 | `replace(c, "")` keeps every other character and no `c`; without a `c` the text is unchanged |
| Strings.RemoveCharOne | crudapp.py:269 | on a single character, `replace(c, "")` drops it exactly when it is `c` |
| Strings.RemoveCharAppend | crudapp.py:269 | `replace(c, "")` of a concatenation is the concatenation of the pieces' results, so the other characters keep their order and count |
| Strings.PyInt | crudapp.py:269 | `int()` fails on any character U+001C to U+001F, which it does not skip although `strip()` would; otherwise it succeeds only on stripped text that starts with a digit or a sign, is negative only after a `-`, and reads a plain run of digits as its decimal value (whatever its length; see "Left out") |
| Strings.PyIntRejectsSeparator | crudapp.py:269 | `int()` of U+001C followed by `5` fails |
| Strings.StripIdempotent | crudapp.py:192 | stripping twice is stripping once |
| Strings.Decimal | crudapp.py:262 | `str(n)`: one or more ASCII digits, no leading zero, whose decimal value is `n` |
| Strings.PyIntDecimal | crudapp.py:269 | `int(str(n)) == n` for every non-negative id |
| Migration.MigrateDb | crudapp.py:33-55 | adds both date columns; keeps the ids, the next id and every row that had an entry date; gives every other row today's date; keeps the store valid |
| Migration.MigrateTwice | crudapp.py:40-49 | running the migration again, on any later day, changes nothing |
| Migration.InitDb | crudapp.py:15-31 | the resulting table has both date columns, and an entry date on every row; a new table is empty and has the base columns; an existing one keeps its ids and next id, keeps every row that has an entry date, and only gives today's date to the others: it is exactly `migrate_db` of the existing table |
| Forms.FormErrors | crudapp.py:191-207 | empty exactly when the form is acceptable; holds exactly the failing checks, each once, in the order the checks run; the email is reported missing or malformed, never both |
| Forms.ErrorTexts | crudapp.py:191-210 | one message per error, in the same order; none exactly when the form is acceptable; a problem's message is shown exactly when its check fails |
| Forms.MessagesDiffer | crudapp.py:193-207 | different problems are reported with different messages |
| Forms.FailingInOrder | crudapp.py:191-207 | the errors appear in the order the checks run |
| Forms.StrippedPatterns | crudapp.py:198 | on a stripped field, both patterns mean their plain anchored language, since no trailing newline remains |
| Forms.Cleaned | crudapp.py:212-213 | every text field is the form's own field stripped, so it is present and no NOT NULL column is missing; the dates are passed on as given |
| Forms.SubmitAdd | crudapp.py:208-218 | a form with errors writes nothing and shows exactly the form's error list; an accepted form is exactly `add_patient` of the stripped values: it never trips NOT NULL, succeeds exactly when its stripped email is unused, and then adds one row with the stripped values under the next id and keeps every other row; on failure the table is unchanged and the message is "Email already exists." |
| Forms.SubmitUpdate | crudapp.py:298-331 | a form with errors writes nothing and shows exactly the form's error list; an accepted form is exactly `update_patient` of the stripped values: it succeeds exactly when the row is gone or no other row holds its stripped email; a missing row leaves the table unchanged; a success stores the stripped values in that row and keeps every other row and the next id; on failure the table is unchanged and the message is "Email already exists." |
| Forms.AcceptedFormIsClean | crudapp.py:211-214 | the stripped values of an accepted form make a clean row: names non-empty and stripped, a valid email, a phone that is empty or valid, an entry date |
| Forms.SubmitAddKeepsRowsClean | crudapp.py:211-214 | if every row is clean, it still is after an add through the form |
| Forms.SubmitUpdateKeepsRowsClean | crudapp.py:318-327 | if every row is clean, it still is after an update through the form |
| Forms.Label | crudapp.py:261-264 | the label starts with the first name, a space, the last name and a space; the `ID: ` it adds follows `(`, and after it come the id's decimal digits and `)` |
| Forms.SelectedIdAsWritten | crudapp.py:269 | with no `ID: ` there is no id; otherwise `int` is applied to the text between the first `ID: ` and the next one (or the end), with `)` removed |
| Forms.SelectedId | crudapp.py:269 | with no `ID: ` there is no id; an id found is read from the text after an `ID: ` that no later `ID: ` follows, with `)` removed |
| Forms.SelectedIdAsWrittenRoundTrip | crudapp.py:269 | the parse as written gives back the id when `first + " " + last + " "` holds no `ID: ` |
| Forms.SelectedIdAsWrittenMisreads | crudapp.py:269 | the parse as written reads id 9 from the label of patient 3 whose last name is `ID: 9ID:` |
| Forms.SelectedIdRoundTrip | crudapp.py:261-269 | reading after the last `ID: ` gives back the id of every label, whatever the names |
| Forms.SelectForEdit | crudapp.py:268-271 | the patient opened for a label is a row of the table |
| Forms.SelectForEditFindsLabelledPatient | crudapp.py:261-271 | every row's own label opens that row |
| Forms.SelectForEditAsWritten | crudapp.py:268-271 | the patient the edit form as written opens for a label is a row of the table |
| Forms.SelectForEditAsWrittenFindsLabelledPatient | crudapp.py:261-271 | when `first + " " + last + " "` holds no `ID: `, a row's own label opens that row |
| Forms.SelectForEditAsWrittenOpensOtherPatient | crudapp.py:261-271 | with patients 3 and 9 in the table, the label of patient 3 named `x` `ID: 9ID:` opens patient 9 |

## Left out

- The Streamlit interface: page layout, widgets, session keys, the pandas
  table, and the success or error banners. Only the values the handlers
  compute are modelled.
- Connection handling: `get_connection`, commit and close. Errors other than
  a constraint violation, such as a locked or missing database file, are not
  modelled.
- The clock: `datetime.date.today()` becomes the `today` parameter of the
  migration. The date pickers become optional ISO strings on the form, and
  `fromisoformat` in the edit form is not modelled.
- Validators.IsValidPhone: `\d` is taken as the ASCII digits only. Python's
  `re` also accepts other Unicode decimal digits there.
- Strings.PyInt: only ASCII digits are read. `int()` also accepts other
  Unicode decimal digits, such as Arabic-Indic ones; the model rejects them.
  `int()` also refuses a numeral of more than 4300 digits (Python's default
  `sys.get_int_max_str_digits()`), while the model reads a run of digits of
  any length. Such a numeral can reach the as-written label parse only
  through a name, not through an id.
- The search box text is stripped by the page before `search_patients` is
  called. `Queries.SearchPatients` takes the query as given.
- SQLite limits: the maximum LIKE pattern length, the 64-bit limit on
  AUTOINCREMENT ids (ids are unbounded here), and type affinity (every column
  holds text or NULL).
- `init_db` on an existing table of another shape: `Migration.InitDb`
  requires an existing table to conform to the store's invariants.
- `migrate_db`'s `except` branch: the `try` wraps only the backfill
  `UPDATE`, and the `ALTER`s before it run only for missing columns. Once
  both columns exist that `UPDATE` cannot fail, so the branch is never taken
  and is not modelled.
- Forms.SelectForEdit: models the corrected parse, `Forms.SelectedId`, which
  reads after the last `ID: `. The program reads after the first one; that
  behaviour is `Forms.SelectForEditAsWritten`.
- Forms.SelectForEditFindsLabelledPatient: holds for the corrected parse for
  every row. For the parse as written it holds only when the names hold no
  `ID: `, as `Forms.SelectForEditAsWrittenFindsLabelledPatient` states.
- Concurrency between browser sessions sharing the database file.

## Findings

| source | as written | input that shows it | evidently intended | confidence | as-written member | corrected member |
|---|---|---|---|---|---|---|
| crudapp.py:269 | the id is read from the text between the first and the second `ID: ` of the select-box label | patient 3 with first name `x` and last name `ID: 9ID:` has the label `x ID: 9ID: (ID: 3)`; the parse yields 9, so Update and Delete act on patient 9 | read the digits after the last `ID: `, the one the label itself adds | not executed; high that the misread happens, medium that such names occur | Forms.SelectedIdAsWrittenMisreads | Forms.SelectedIdRoundTrip |

A last name such as `ID: x` makes the as-written parse call `int` on `x (`.
That raises `ValueError` and stops the page. `Forms.SelectForEditAsWritten`
opens a row with the parse as written, and
`Forms.SelectForEditAsWrittenOpensOtherPatient` shows it opening patient 9
for patient 3's label. `Forms.SelectForEdit` uses the corrected parse,
`Forms.SelectedId`.

=== FILE: forms.dfy ===
/**
 * The pure logic inside the form handlers of crudapp.py: the ordered error
 * list of the add and edit forms, the call they make when it is empty, and the
 * select-box label `"{first} {last} (ID: {id})"` together with its parse back
 * to an id. Widgets, layout and message rendering are not modelled.
 */
module Forms {
  import opened Optional
  import opened Strings
  import opened Validators
  import opened Patients

  // ---------------------------------------------------------------------
  // Form check
  // ---------------------------------------------------------------------

  /** What the add and edit forms collect; dates arrive already as ISO strings, or `None`. An empty entry date counts as missing, as `not doe_str` does. */
  datatype Form = Form(
    firstName: string,
    lastName: string,
    address: string,
    email: string,
    phone: string,
    dateOfBirth: Option<string>,
    dateOfEntry: Option<string>)

  /** The checks of the forms, in the order they run. */
  datatype Problem =
    | FirstNameRequired
    | LastNameRequired
    | EmailRequired
    | EmailInvalid
    | PhoneInvalid
    | DateOfEntryRequired

  /** The text shown for each problem. */
  function Message(p: Problem): string {
    match p
    case FirstNameRequired => "First name is required."
    case LastNameRequired => "Last name is required."
    case EmailRequired => "Email is required."
    case EmailInvalid => "Invalid email format."
    case PhoneInvalid => "Phone must be 10\U{2013}15 digits, optional '+' at start."
    case DateOfEntryRequired => "Date of Entry is required."
  }

  /** The position of a check in the order the forms run them. */
  function Rank(p: Problem): nat {
    match p
    case FirstNameRequired => 0
    case LastNameRequired => 1
    case EmailRequired => 2
    case EmailInvalid => 3
    case PhoneInvalid => 4
    case DateOfEntryRequired => 5
  }

  /** Each problem appears at most once, and they follow the order the checks run in. */
  predicate InCheckOrder(errs: seq<Problem>) {
    forall i, j | 0 <= i < j < |errs| :: Rank(errs[i]) < Rank(errs[j])
  }

  /** Every check, in the order the forms run them. */
  const Checks: seq<Problem> :=
    [FirstNameRequired, LastNameRequired, EmailRequired, EmailInvalid, PhoneInvalid, DateOfEntryRequired]

  /**
   * The condition under which each check reports its problem. The email
   * format is only checked when an email was given, and the phone only
   * when one was given.
   */
  predicate Fails(f: Form, p: Problem) {
    match p
    case FirstNameRequired => Strip(f.firstName) == ""
    case LastNameRequired => Strip(f.lastName) == ""
    case EmailRequired => Strip(f.email) == ""
    case EmailInvalid => Strip(f.email) != "" && !EmailPatternMatches(Strip(f.email))
    case PhoneInvalid => Strip(f.phone) != "" && !PhonePatternMatches(Strip(f.phone))
    case DateOfEntryRequired => f.dateOfEntry.None? || f.dateOfEntry.value == ""
  }

  /** The form passes every check. */
  predicate Acceptable(f: Form) {
    && Strip(f.firstName) != ""
    && Strip(f.lastName) != ""
    && EmailPatternMatches(Strip(f.email))
    && (Strip(f.phone) == "" || PhonePatternMatches(Strip(f.phone)))
    && f.dateOfEntry.Some? && f.dateOfEntry.value != ""
  }

  /** The checks among `ps` that fail, in the order of `ps`. */
  function Failing(f: Form, ps: seq<Problem>): (r: seq<Problem>)
    ensures forall p :: p in r <==> p in ps && Fails(f, p)
  {
    if |ps| == 0 then []
    else
      var rest := Failing(f, ps[1..]);
      (if Fails(f, ps[0]) then [ps[0]] else []) + rest
  }

  /** In an ordered list of checks, the first ranks below every later one. */
  lemma FirstRanksLowest(ps: seq<Problem>, q: Problem)
    requires InCheckOrder(ps) && |ps| > 0 && q in ps[1..]
    ensures Rank(ps[0]) < Rank(q)
  {
    var k :| 0 <= k < |ps[1..]| && ps[1..][k] == q;
    assert ps[k + 1] == q;
  }

  lemma RestInOrder(ps: seq<Problem>)
    requires InCheckOrder(ps) && |ps| > 0
    ensures InCheckOrder(ps[1..])
  {
    var tail := ps[1..];
    forall i, j | 0 <= i < j < |tail| ensures Rank(tail[i]) < Rank(tail[j]) {
      assert tail[i] == ps[i + 1] && tail[j] == ps[j + 1];
    }
  }

  lemma PrependInOrder(x: Problem, rest: seq<Problem>)
    requires InCheckOrder(rest)
    requires forall q | q in rest :: Rank(x) < Rank(q)
    ensures InCheckOrder([x] + rest)
  {
    var r := [x] + rest;
    forall i, j | 0 <= i < j < |r| ensures Rank(r[i]) < Rank(r[j]) {
      assert r[j] == rest[j - 1];
      if i > 0 {
        assert r[i] == rest[i - 1];
      } else {
        assert rest[j - 1] in rest;
      }
    }
  }

  /** Dropping the checks that pass keeps the others in their order. */
  lemma {:induction false} FailingInOrder(f: Form, ps: seq<Problem>)
    requires InCheckOrder(ps)
    ensures InCheckOrder(Failing(f, ps))
  {
    if |ps| > 0 {
      RestInOrder(ps);
      FailingInOrder(f, ps[1..]);
      var rest := Failing(f, ps[1..]);
      if Fails(f, ps[0]) {
        forall q | q in rest ensures Rank(ps[0]) < Rank(q) {
          FirstRanksLowest(ps, q);
        }
        PrependInOrder(ps[0], rest);
        assert Failing(f, ps) == [ps[0]] + rest;
      } else {
        assert Failing(f, ps) == rest;
      }
    }
  }

  lemma EveryProblemChecked(p: Problem)
    ensures p in Checks
  {
    assert Checks[Rank(p)] == p;
  }

  /** The `errors` list the add form (and, identically, the edit form) builds. */
  function FormErrors(f: Form): (errs: seq<Problem>)
    ensures errs == [] <==> Acceptable(f)
    ensures forall p :: p in errs <==> Fails(f, p)
    ensures InCheckOrder(errs)
    ensures FirstNameRequired in errs <==> Strip(f.firstName) == ""
    ensures EmailInvalid in errs <==> Strip(f.email) != "" && !EmailPatternMatches(Strip(f.email))
    ensures !(EmailRequired in errs && EmailInvalid in errs)
  {
    assert InCheckOrder(Checks);
    FailingInOrder(f, Checks);
    var errs := Failing(f, Checks);
    forall p ensures p in Checks {
      EveryProblemChecked(p);
    }
    assert errs == [] ==> Acceptable(f) by {
      if errs == [] {
        assert !Fails(f, FirstNameRequired) && !Fails(f, LastNameRequired) && !Fails(f, EmailRequired);
        assert !Fails(f, EmailInvalid) && !Fails(f, PhoneInvalid) && !Fails(f, DateOfEntryRequired);
      }
    }
    assert errs != [] ==> !Acceptable(f) by {
      if errs != [] {
        assert errs[0] in errs;
      }
    }
    errs
  }

  /** Different problems are shown with different texts. */
  lemma MessagesDiffer(p: Problem, q: Problem)
    requires p != q
    ensures Message(p) != Message(q)
  {
    assert |Message(p)| != |Message(q)|;
  }

  /** The texts `st.error` shows, one per problem of the form, in check order. */
  function ErrorTexts(f: Form): (texts: seq<string>)
    ensures |texts| == |FormErrors(f)|
    ensures texts == [] <==> Acceptable(f)
    ensures forall p :: Message(p) in texts <==> Fails(f, p)
    ensures forall k | 0 <= k < |texts| :: texts[k] == Message(FormErrors(f)[k])
  {
    var errs := FormErrors(f);
    var texts := seq(|errs|, k requires 0 <= k < |errs| => Message(errs[k]));
    assert forall p | Message(p) in texts :: p in errs by {
      forall p | Message(p) in texts ensures p in errs {
        var k :| 0 <= k < |texts| && texts[k] == Message(p);
        if errs[k] != p {
          MessagesDiffer(errs[k], p);
        }
      }
    }
    assert forall p | p in errs :: Message(p) in texts by {
      forall p | p in errs ensures Message(p) in texts {
        var k :| 0 <= k < |errs| && errs[k] == p;
        assert texts[k] == Message(p);
      }
    }
    texts
  }

  /** A stripped field never ends in a newline, so `$` has only its plain meaning there. */
  lemma StrippedPatterns(s: string)
    ensures EmailPatternMatches(Strip(s)) <==> EmailShape(Strip(s))
    ensures PhonePatternMatches(Strip(s)) <==> PhoneShape(Strip(s))
  {
  }

  // ---------------------------------------------------------------------
  // Submitting a form
  // ---------------------------------------------------------------------

  /** The values the handlers pass on: every text field stripped. */
  function Cleaned(f: Form): (c: Fields)
    ensures c.firstName.Some? && c.lastName.Some? && c.address.Some? && c.email.Some? && c.phone.Some?
    ensures Strip(c.firstName.value) == c.firstName.value && Strip(c.lastName.value) == c.lastName.value
    ensures Strip(c.address.value) == c.address.value
    ensures Strip(c.email.value) == c.email.value && Strip(c.phone.value) == c.phone.value
    ensures MissingRequired(c).None?
    ensures c.firstName == Some(Strip(f.firstName)) && c.lastName == Some(Strip(f.lastName))
    ensures c.address == Some(Strip(f.address))
    ensures c.email == Some(Strip(f.email)) && c.phone == Some(Strip(f.phone))
    ensures c.dateOfBirth == f.dateOfBirth && c.dateOfEntry == f.dateOfEntry
  {
    StripIdempotent(f.firstName);
    StripIdempotent(f.lastName);
    StripIdempotent(f.address);
    StripIdempotent(f.email);
    StripIdempotent(f.phone);
    Fields(Some(Strip(f.firstName)), Some(Strip(f.lastName)), Some(Strip(f.address)),
           Some(Strip(f.email)), Some(Strip(f.phone)), f.dateOfBirth, f.dateOfEntry)
  }

  /** Either the form's error list, or the result of the write it led to. */
  datatype Submission = Rejected(errors: seq<Problem>) | Submitted(outcome: Outcome)

  function StoreAfter(st: Store, s: Submission): Store {
    match s
    case Rejected(_) => st
    case Submitted(o) => o.store
  }

  /** The add form's submit handler. */
  function SubmitAdd(st: Store, f: Form): (r: Submission)
    requires Valid(st)
    ensures r.Rejected? <==> !Acceptable(f)
    ensures r.Rejected? ==> r.errors == FormErrors(f) && r.errors != []
    ensures Valid(StoreAfter(st, r))
    ensures r.Submitted? ==>
      && (r.outcome.success <==> !EmailInUse(st, Strip(f.email)))
      && (r.outcome.success ==> st.nextId in r.outcome.store.rows && HasFields(r.outcome.store.rows[st.nextId], Cleaned(f)))
    ensures r.Submitted? && !r.outcome.success ==>
      r.outcome.store == st && r.outcome.error == Some(DuplicateEmailMessage)
    ensures r.Submitted? && r.outcome.success ==>
      && r.outcome.store.rows.Keys == st.rows.Keys + {st.nextId}
      && (forall k | k in st.rows :: r.outcome.store.rows[k] == st.rows[k])
      && r.outcome.store.nextId == st.nextId + 1
    ensures r.Submitted? ==> r.outcome == AddPatient(st, Cleaned(f))
  {
    var errs := FormErrors(f);
    if errs != [] then Rejected(errs)
    else
      assert MissingRequired(Cleaned(f)).None?;
      Submitted(AddPatient(st, Cleaned(f)))
  }

  /** The edit form's update handler, for the patient picked in the select box. */
  function SubmitUpdate(st: Store, id: nat, f: Form): (r: Submission)
    requires Valid(st)
    ensures r.Rejected? <==> !Acceptable(f)
    ensures r.Rejected? ==> r.errors == FormErrors(f) && r.errors != []
    ensures Valid(StoreAfter(st, r))
    ensures r.Submitted? ==> (r.outcome.success <==> id !in st.rows || !EmailHeldByOther(st, id, Strip(f.email)))
    ensures r.Submitted? && r.outcome.success && id in st.rows ==>
      id in r.outcome.store.rows && HasFields(r.outcome.store.rows[id], Cleaned(f))
    ensures r.Submitted? && !r.outcome.success ==>
      r.outcome.store == st && r.outcome.error == Some(DuplicateEmailMessage)
    ensures r.Submitted? && id !in st.rows ==> r.outcome.store == st
    ensures r.Submitted? && r.outcome.success ==>
      && r.outcome.store.rows.Keys == st.rows.Keys
      && (forall k | k in st.rows && k != id :: r.outcome.store.rows[k] == st.rows[k])
      && r.outcome.store.nextId == st.nextId
    ensures r.Submitted? ==> r.outcome == UpdatePatient(st, id, Cleaned(f))
  {
    var errs := FormErrors(f);
    if errs != [] then Rejected(errs)
    else
      var c := Cleaned(f);
      assert MissingRequired(c).None? && c.email.value == Strip(f.email);
      var o := UpdatePatient(st, id, c);
      assert o.success && id in st.rows ==> id in o.store.rows.Keys;
      Submitted(o)
  }

  /** A row as the forms write it: names and address stripped, names non-empty, a well-formed email, phone empty or well-formed, an entry date. */
  predicate CleanRow(p: Patient) {
    && p.firstName != "" && Strip(p.firstName) == p.firstName
    && p.lastName != "" && Strip(p.lastName) == p.lastName
    && p.address.Some? && Strip(p.address.value) == p.address.value
    && EmailShape(p.email)
    && p.phone.Some? && (p.phone.value == "" || PhoneShape(p.phone.value))
    && p.dateOfEntry.Some?
  }

  predicate AllClean(st: Store) {
    forall id | id in st.rows :: CleanRow(st.rows[id])
  }

  /** Accepted form values, once stripped, make a clean row. */
  lemma AcceptedFormIsClean(f: Form, p: Patient)
    requires Acceptable(f) && HasFields(p, Cleaned(f))
    ensures CleanRow(p)
  {
    StripIdempotent(f.firstName);
    StripIdempotent(f.lastName);
    StripIdempotent(f.address);
    StrippedPatterns(f.email);
    StrippedPatterns(f.phone);
  }

  /** Adding through the form keeps every row clean. */
  lemma SubmitAddKeepsRowsClean(st: Store, f: Form)
    requires Valid(st) && AllClean(st)
    ensures AllClean(StoreAfter(st, SubmitAdd(st, f)))
  {
    var r := SubmitAdd(st, f);
    if r.Submitted? && r.outcome.success {
      var o := AddPatient(st, Cleaned(f));
      assert r.outcome == o;
      forall id | id in o.store.rows ensures CleanRow(o.store.rows[id]) {
        if id == st.nextId {
          AcceptedFormIsClean(f, o.store.rows[id]);
        } else {
          assert id in st.rows;
        }
      }
    }
  }

  /** Updating through the form keeps every row clean. */
  lemma SubmitUpdateKeepsRowsClean(st: Store, id: nat, f: Form)
    requires Valid(st) && AllClean(st)
    ensures AllClean(StoreAfter(st, SubmitUpdate(st, id, f)))
  {
    var r := SubmitUpdate(st, id, f);
    if r.Submitted? && r.outcome.success {
      var o := UpdatePatient(st, id, Cleaned(f));
      assert r.outcome == o;
      forall k | k in o.store.rows ensures CleanRow(o.store.rows[k]) {
        assert k in st.rows;
        if k == id {
          AcceptedFormIsClean(f, o.store.rows[k]);
        }
      }
    }
  }

  // ---------------------------------------------------------------------
  // Select-box label
  // ---------------------------------------------------------------------

  const IdMarker := "ID: "

  /** Everything of the label before the `ID: ` the label itself adds. */
  function LabelHead(p: Patient): string {
    p.firstName + " " + p.lastName + " ("
  }

  /** `f"{row['first_name']} {row['last_name']} (ID: {row['id']})"`. */
  function Label(p: Patient): (shown: string)
    ensures OccursAt(shown, IdMarker, |LabelHead(p)|)
    ensures shown[..|LabelHead(p)|] == LabelHead(p)
    ensures shown[|LabelHead(p)| + |IdMarker|..] == Decimal(p.id) + ")"
  {
    p.firstName + " " + p.lastName + " (ID: " + Decimal(p.id) + ")"
  }

  /** The label cut at the `ID: ` it adds. */
  lemma LabelParts(p: Patient)
    ensures Label(p) == LabelHead(p) + IdMarker + (Decimal(p.id) + ")")
  {
    assert " (ID: " == " (" + IdMarker;
  }

  /**
   * `int(label.split("ID: ")[1].replace(")", ""))`: the text between the
   * first and the second `ID: `. `None` stands for the `IndexError` or
   * `ValueError` Python would raise.
   */
  function SelectedIdAsWritten(shown: string): (r: Option<int>)
    ensures !Contains(shown, IdMarker) ==> r.None?
    ensures IndexOf(shown, IdMarker).Some? ==>
      var i := IndexOf(shown, IdMarker).value;
      r == PyInt(RemoveChar(SplitOn(shown[i + |IdMarker|..], IdMarker)[0], ')'))
  {
    var parts := SplitOn(shown, IdMarker);
    assert IndexOf(shown, IdMarker).Some? ==>
      parts[1] == SplitOn(shown[IndexOf(shown, IdMarker).value + |IdMarker|..], IdMarker)[0] by {
      if IndexOf(shown, IdMarker).Some? {
        SecondPiece(shown, IdMarker, IndexOf(shown, IdMarker).value);
      }
    }
    if |parts| < 2 then None else PyInt(RemoveChar(parts[1], ')'))
  }

  /** The id read from the text after the last `ID: `, the one the label itself adds. */
  function SelectedId(shown: string): (r: Option<int>)
    ensures !Contains(shown, IdMarker) ==> r.None?
    ensures r.Some? ==> exists i | OccursAt(shown, IdMarker, i) ::
      !Contains(shown[i + |IdMarker|..], IdMarker) && r == PyInt(RemoveChar(shown[i + |IdMarker|..], ')'))
  {
    match LastIndexOf(shown, IdMarker)
    case None => None
    case Some(i) =>
      NoneAfterLast(shown, IdMarker, i);
      PyInt(RemoveChar(shown[i + |IdMarker|..], ')'))
  }

  /** The patient the edit form opens for a label. */
  function SelectForEdit(st: Store, shown: string): (r: Option<Patient>)
    requires Valid(st)
    ensures r.Some? ==> r.value in st.rows.Values
  {
    match SelectedId(shown)
    case Some(n) => if n >= 0 then GetPatient(st, n) else None
    case None => None
  }

  /** The patient the edit form as written opens: the id is read after the first `ID: `. */
  function SelectForEditAsWritten(st: Store, shown: string): (r: Option<Patient>)
    requires Valid(st)
    ensures r.Some? ==> r.value in st.rows.Values
  {
    match SelectedIdAsWritten(shown)
    case Some(n) => if n >= 0 then GetPatient(st, n) else None
    case None => None
  }

  /** The numeral and the closing parenthesis: no `I`, so no `ID: ` starts there. */
  lemma TailHasNoMarker(n: nat)
    ensures forall j | 0 <= j < |Decimal(n) + ")"| :: (Decimal(n) + ")")[j] != 'I'
    ensures !Contains(Decimal(n) + ")", IdMarker)
    ensures RemoveChar(Decimal(n) + ")", ')') == Decimal(n)
  {
    var t := Decimal(n) + ")";
    assert forall j | 0 <= j < |t| :: t[j] != 'I' by {
      forall j | 0 <= j < |t| ensures t[j] != 'I' {
        if j < |Decimal(n)| {
          assert IsAsciiDigit(Decimal(n)[j]);
        }
      }
    }
    forall j | 0 <= j <= |t| ensures !OccursAt(t, IdMarker, j) {
      if j + 4 <= |t| {
        assert t[j..j + 4][0] == t[j];
      }
    }
    RemoveCharAppend(Decimal(n), ")", ')');
    assert ')' !in Decimal(n) by {
      forall j | 0 <= j < |Decimal(n)| ensures Decimal(n)[j] != ')' {
        assert IsAsciiDigit(Decimal(n)[j]);
      }
    }
  }

  /** After an `ID: ` followed by text without `I`, no `ID: ` can start. */
  lemma NoMarkerAfter(head: string, tail: string, j: int)
    requires forall k | 0 <= k < |tail| :: tail[k] != 'I'
    requires |head| < j
    ensures !OccursAt(head + IdMarker + tail, IdMarker, j)
  {
    var front := head + IdMarker;
    var shown := front + tail;
    if j + 4 <= |shown| {
      assert shown[j..j + 4][0] == shown[j];
      if j >= |front| {
        assert shown[j] == tail[j - |front|];
      } else {
        assert shown[j] == IdMarker[j - |head|];
      }
    }
  }

  /** The `ID: ` the label adds is its last one. */
  lemma LabelMarkerIsLast(p: Patient)
    ensures LastIndexOf(Label(p), IdMarker) == Some(|LabelHead(p)|)
  {
    LabelParts(p);
    var shown := Label(p);
    var i := |LabelHead(p)|;
    assert shown[i..i + 4] == IdMarker;
    TailHasNoMarker(p.id);
    forall j | i < j ensures !OccursAt(shown, IdMarker, j) {
      NoMarkerAfter(LabelHead(p), Decimal(p.id) + ")", j);
    }
    var r := LastIndexOf(shown, IdMarker);
    assert OccursAt(shown, IdMarker, i);
    assert r.Some?;
    assert !(r.value < i) && !(r.value > i);
  }

  /** Reading from the last `ID: ` gives back the id, whatever the names are. */
  lemma SelectedIdRoundTrip(p: Patient)
    ensures SelectedId(Label(p)) == Some(p.id)
  {
    LabelParts(p);
    var shown := Label(p);
    var i := |LabelHead(p)|;
    LabelMarkerIsLast(p);
    assert shown[i + 4..] == Decimal(p.id) + ")";
    TailHasNoMarker(p.id);
    PyIntDecimal(p.id);
  }

  /** Every patient of the table is opened by its own label. */
  lemma SelectForEditFindsLabelledPatient(st: Store, id: nat)
    requires Valid(st) && id in st.rows
    ensures SelectForEdit(st, Label(st.rows[id])) == Some(st.rows[id])
  {
    SelectedIdRoundTrip(st.rows[id]);
  }

  /** The names and the space before the parenthesis: the part of the label a user types. */
  function LabelNames(p: Patient): string {
    p.firstName + " " + p.lastName + " "
  }

  /** When the names hold no `ID: `, the one the label adds is its first. */
  lemma LabelMarkerIsFirst(p: Patient)
    requires !Contains(LabelNames(p), IdMarker)
    ensures IndexOf(Label(p), IdMarker) == Some(|LabelHead(p)|)
  {
    LabelParts(p);
    var names := LabelNames(p);
    var n := |names|;
    var tail := Decimal(p.id) + ")";
    var shown := names + "(" + IdMarker + tail;
    assert Label(p) == shown;
    var i := |LabelHead(p)|;
    assert i == n + 1;
    assert shown[..n] == names && shown[n] == '(';
    assert shown[i..i + 4] == IdMarker;
    forall j | 0 <= j < i ensures !OccursAt(shown, IdMarker, j) {
      if j + 4 <= n {
        OccursInPrefix(shown, IdMarker, n, j);
        assert !OccursAt(names, IdMarker, j);
      } else if j + 4 <= |shown| {
        assert shown[j..j + 4][n - j] == '(';
      }
    }
    var r := IndexOf(shown, IdMarker);
    assert OccursAt(shown, IdMarker, i);
    assert r.Some?;
    assert !(r.value < i) && !(r.value > i);
  }

  /**
   * Reading from the first `ID: ` gives back the id when the names cannot
   * supply an earlier `ID: `: `first + " " + last + " "` holds none.
   */
  lemma SelectedIdAsWrittenRoundTrip(p: Patient)
    requires !Contains(LabelNames(p), IdMarker)
    ensures SelectedIdAsWritten(Label(p)) == Some(p.id)
  {
    LabelParts(p);
    var shown := Label(p);
    var i := |LabelHead(p)|;
    LabelMarkerIsFirst(p);
    assert shown[i + 4..] == Decimal(p.id) + ")";
    TailHasNoMarker(p.id);
    SecondPiece(shown, IdMarker, i);
    PyIntDecimal(p.id);
  }

  /** An `ID: ` with no `I` before it is the first one. */
  lemma FirstMarkerAt(s: string, i: nat)
    requires OccursAt(s, IdMarker, i)
    requires forall j | 0 <= j < i :: s[j] != 'I'
    ensures IndexOf(s, IdMarker) == Some(i)
  {
    forall j | 0 <= j < i ensures !OccursAt(s, IdMarker, j) {
      assert s[j..j + 4][0] == s[j];
    }
    var r := IndexOf(s, IdMarker);
    assert r.Some?;
    assert !(r.value < i) && !(r.value > i);
  }

  /** The pieces `split("ID: ")` cuts the misread label into. */
  lemma MisreadPieces(shown: string)
    requires shown == "x ID: 9ID: (ID: 3)"
    ensures var parts := SplitOn(shown, IdMarker); |parts| >= 2 && parts[1] == "9"
  {
    assert shown[2..6] == IdMarker;
    FirstMarkerAt(shown, 2);
    var rest := shown[6..];
    assert shown[6] == '9' && shown[7] == 'I' && shown[8] == 'D' && shown[9] == ':' && shown[10] == ' ';
    assert shown[7..11] == IdMarker;
    assert rest[1..5] == shown[7..11];
    assert rest[0] == shown[6];
    FirstMarkerAt(rest, 1);
    assert rest[..1] == "9";
    assert SplitOn(rest, IdMarker)[0] == "9";
    SecondPiece(shown, IdMarker, 2);
  }

  /**
   * A last name such as `ID: 9ID:` makes the first-`ID: ` parse read 9 from
   * the label of patient 3, so the edit form would open, and its Delete
   * button remove, patient 9.
   */
  lemma SelectedIdAsWrittenMisreads()
    ensures var p := Patient(3, "x", "ID: 9ID:", None, "x@example.org", None, None, None);
      SelectedIdAsWritten(Label(p)) == Some(9) && p.id == 3
  {
    var p := Patient(3, "x", "ID: 9ID:", None, "x@example.org", None, None, None);
    MisreadLabel(p);
    MisreadPieces(Label(p));
    NineParses();
  }

  /** When the names hold no `ID: `, the edit form as written opens the labelled row. */
  lemma SelectForEditAsWrittenFindsLabelledPatient(st: Store, id: nat)
    requires Valid(st) && id in st.rows && !Contains(LabelNames(st.rows[id]), IdMarker)
    ensures SelectForEditAsWritten(st, Label(st.rows[id])) == Some(st.rows[id])
  {
    SelectedIdAsWrittenRoundTrip(st.rows[id]);
  }

  /** With patients 3 and 9 in the table, the label of patient 3 named `x ID: 9ID:` opens patient 9. */
  lemma SelectForEditAsWrittenOpensOtherPatient(st: Store)
    requires Valid(st) && 3 in st.rows && 9 in st.rows
    requires st.rows[3].firstName == "x" && st.rows[3].lastName == "ID: 9ID:"
    ensures SelectForEditAsWritten(st, Label(st.rows[3])) == Some(st.rows[9])
    ensures st.rows[9] != st.rows[3]
  {
    MisreadLabel(st.rows[3]);
    MisreadPieces(Label(st.rows[3]));
    NineParses();
  }

  lemma MisreadLabel(p: Patient)
    requires p.firstName == "x" && p.lastName == "ID: 9ID:" && p.id == 3
    ensures Label(p) == "x ID: 9ID: (ID: 3)"
  {
    assert Decimal(3) == "3";
  }

  lemma NineParses()
    ensures PyInt(RemoveChar("9", ')')) == Some(9)
  {
    assert RemoveChar("9", ')') == "9";
    PyIntOfDigits("9");
    assert DecimalValue("9") == 9;
  }
}

=== FILE: migration.dfy ===
/**
 * Schema set-up (crudapp.py, `init_db` and `migrate_db`): create the table if it
 * is absent, add the two date columns if they are missing, and fill every NULL
 * `date_of_entry` with the date of the run. The date is a parameter; dates are
 * opaque strings.
 */
module Migration {
  import opened Optional
  import opened Patients

  const DateOfBirth := "date_of_birth"
  const DateOfEntry := "date_of_entry"

  /** The columns `CREATE TABLE` gives the table. */
  const BaseColumns: set<string> := {"id", "first_name", "last_name", "address", "email", "phone"}

  /** The table as `PRAGMA table_info` and the rows see it. */
  datatype Table = Table(columns: set<string>, store: Store)

  /** A column that does not exist reads as NULL in every row. */
  predicate Conforms(t: Table) {
    && Valid(t.store)
    && (DateOfBirth !in t.columns ==> forall id | id in t.store.rows :: t.store.rows[id].dateOfBirth.None?)
    && (DateOfEntry !in t.columns ==> forall id | id in t.store.rows :: t.store.rows[id].dateOfEntry.None?)
  }

  /** `UPDATE ... SET date_of_entry = today WHERE date_of_entry IS NULL`, on one row. */
  function Backfill(p: Patient, today: string): Patient {
    if p.dateOfEntry.None? then p.(dateOfEntry := Some(today)) else p
  }

  /**
   * `migrate_db`: add the missing date columns (`ALTER TABLE ... ADD COLUMN`
   * gives existing rows NULL there), then backfill `date_of_entry`.
   */
  function MigrateDb(t: Table, today: string): (r: Table)
    ensures r.columns == t.columns + {DateOfBirth, DateOfEntry}
    ensures r.store.nextId == t.store.nextId
    ensures r.store.rows.Keys == t.store.rows.Keys
    ensures forall id | id in r.store.rows :: r.store.rows[id].dateOfEntry.Some?
    ensures forall id | id in t.store.rows && t.store.rows[id].dateOfEntry.Some? ::
              r.store.rows[id] == t.store.rows[id]
    ensures forall id | id in t.store.rows && t.store.rows[id].dateOfEntry.None? ::
              r.store.rows[id] == t.store.rows[id].(dateOfEntry := Some(today))
    ensures Conforms(t) ==> Conforms(r)
  {
    var columns := t.columns + {DateOfBirth, DateOfEntry};
    var rows := map id | id in t.store.rows :: Backfill(t.store.rows[id], today);
    var r := Table(columns, Store(rows, t.store.nextId));
    assert Valid(t.store) ==> Valid(r.store) by {
      if Valid(t.store) {
        forall a, b | a in rows && b in rows && rows[a].email == rows[b].email ensures a == b {
          assert rows[a].email == t.store.rows[a].email;
          assert rows[b].email == t.store.rows[b].email;
        }
      }
    }
    r
  }

  /** A second run changes nothing, whatever date it is given. */
  lemma MigrateTwice(t: Table, today: string, later: string)
    ensures MigrateDb(MigrateDb(t, today), later) == MigrateDb(t, today)
  {
    var once := MigrateDb(t, today);
    var twice := MigrateDb(once, later);
    assert twice.store.rows == once.store.rows;
  }

  /**
   * `init_db`: `CREATE TABLE IF NOT EXISTS` (an absent table becomes an empty
   * one with the base columns), then `migrate_db`.
   */
  function InitDb(existing: Option<Table>, today: string): (r: Table)
    requires existing.Some? ==> Conforms(existing.value)
    ensures Conforms(r)
    ensures {DateOfBirth, DateOfEntry} <= r.columns
    ensures existing.None? || BaseColumns <= existing.value.columns ==> BaseColumns <= r.columns
    ensures forall id | id in r.store.rows :: r.store.rows[id].dateOfEntry.Some?
    ensures existing.None? ==> r.store == EmptyStore
    ensures existing.Some? ==>
              && r.store.rows.Keys == existing.value.store.rows.Keys
              && r.store.nextId == existing.value.store.nextId
    ensures existing.Some? ==>
              forall id | id in existing.value.store.rows ::
                && (existing.value.store.rows[id].dateOfEntry.Some? ==> r.store.rows[id] == existing.value.store.rows[id])
                && (existing.value.store.rows[id].dateOfEntry.None? ==>
                      r.store.rows[id] == existing.value.store.rows[id].(dateOfEntry := Some(today)))
    ensures existing.Some? ==> r == MigrateDb(existing.value, today)
  {
    var t := match existing
      case None => Table(BaseColumns, EmptyStore)
      case Some(t) => t;
    var r := MigrateDb(t, today);
    assert existing.None? ==> r.store.rows == map[];
    r
  }
}

=== FILE: optional.dfy ===
/** Python's `None` and SQL's NULL: a value that may be absent. */
module Optional {

  datatype Option<+T> = None | Some(value: T)

}

=== FILE: patients.dfy ===
/**
 * The `patients` table and the three writes on it (crudapp.py, `add_patient`,
 * `update_patient`, `delete_patient`), with the table held as a value: the rows
 * by id and the AUTOINCREMENT counter. SQLite's constraint checks are spelled
 * out: NOT NULL on first_name, last_name and email (checked in column order),
 * then UNIQUE on email.
 */
module Patients {
  import opened Optional
  import opened Strings

  /** One row of the migrated table. */
  datatype Patient = Patient(
    id: nat,
    firstName: string,
    lastName: string,
    address: Option<string>,
    email: string,
    phone: Option<string>,
    dateOfBirth: Option<string>,
    dateOfEntry: Option<string>)

  /** The values handed to `add_patient` / `update_patient`; Python lets any of them be `None`. */
  datatype Fields = Fields(
    firstName: Option<string>,
    lastName: Option<string>,
    address: Option<string>,
    email: Option<string>,
    phone: Option<string>,
    dateOfBirth: Option<string>,
    dateOfEntry: Option<string>)

  /**
   * The table: rows by id, and the next id AUTOINCREMENT will hand out
   * (one more than the largest id ever assigned, deleted or not).
   */
  datatype Store = Store(rows: map<nat, Patient>, nextId: nat)

  /** A freshly created table: no rows, and the first id will be 1. */
  const EmptyStore := Store(map[], 1)

  /** Every row sits under its own id, every id is below the counter, and no two rows share an email. */
  predicate Valid(st: Store) {
    && (forall id | id in st.rows :: st.rows[id].id == id && id < st.nextId)
    && (forall a, b | a in st.rows && b in st.rows && st.rows[a].email == st.rows[b].email :: a == b)
  }

  // ---------------------------------------------------------------------
  // Constraint violations and the message the caller gets
  // ---------------------------------------------------------------------

  datatype Column = FirstNameColumn | LastNameColumn | EmailColumn

  function ColumnName(c: Column): string {
    match c
    case FirstNameColumn => "first_name"
    case LastNameColumn => "last_name"
    case EmailColumn => "email"
  }

  /** Where a column stands in the table's declaration. */
  function Position(c: Column): nat {
    match c
    case FirstNameColumn => 1
    case LastNameColumn => 2
    case EmailColumn => 4
  }

  /** The NOT NULL column `c` would be NULL. */
  predicate Missing(f: Fields, c: Column) {
    match c
    case FirstNameColumn => f.firstName.None?
    case LastNameColumn => f.lastName.None?
    case EmailColumn => f.email.None?
  }

  /** The `sqlite3.IntegrityError` a write can raise. */
  datatype Violation = NotNull(column: Column) | UniqueEmail

  /** `str(e)` for the error: SQLite's own message text. */
  function SqliteMessage(v: Violation): string {
    match v
    case NotNull(c) => "NOT NULL constraint failed: patients." + ColumnName(c)
    case UniqueEmail => UniqueEmailFailure
  }

  const UniqueEmailFailure := "UNIQUE constraint failed: patients.email"
  const DuplicateEmailMessage := "Email already exists."

  /** A short text opening with `NOT NULL ` has no room for the UNIQUE-on-email text. */
  lemma NotNullPrefixExcludes(m: string)
    requires |m| >= 9 && m[..9] == "NOT NULL " && |m| < 9 + |UniqueEmailFailure|
    ensures !Contains(m, UniqueEmailFailure)
  {
    forall i | 0 <= i <= |m| ensures !OccursAt(m, UniqueEmailFailure, i) {
      if i + |UniqueEmailFailure| <= |m| {
        var w := m[i..i + |UniqueEmailFailure|];
        assert w[0] == m[i] == m[..9][i];
        if i == 5 {
          assert w[1] == m[6] == m[..9][6];
        }
      }
    }
  }

  /** No NOT NULL message contains the UNIQUE-on-email text the writes look for. */
  lemma NotNullIsNotUnique(c: Column)
    ensures !Contains(SqliteMessage(NotNull(c)), UniqueEmailFailure)
  {
    var m := SqliteMessage(NotNull(c));
    assert m[..9] == "NOT NULL ";
    NotNullPrefixExcludes(m);
  }

  /** Only the UNIQUE violation's message mentions the UNIQUE constraint on email. */
  lemma MentionsUniqueEmail(v: Violation)
    ensures Contains(SqliteMessage(v), UniqueEmailFailure) <==> v.UniqueEmail?
  {
    match v
    case NotNull(c) => NotNullIsNotUnique(c);
    case UniqueEmail => assert OccursAt(SqliteMessage(v), UniqueEmailFailure, 0);
  }

  /**
   * The message a failed write returns: "Email already exists." when SQLite's
   * text mentions the UNIQUE constraint on email, SQLite's text otherwise.
   */
  function Reported(v: Violation): (m: string)
    ensures v.UniqueEmail? ==> m == DuplicateEmailMessage
    ensures v.NotNull? ==> m == SqliteMessage(v)
  {
    var e := SqliteMessage(v);
    MentionsUniqueEmail(v);
    if Contains(e, UniqueEmailFailure) then DuplicateEmailMessage else e
  }

  // ---------------------------------------------------------------------
  // Writes
  // ---------------------------------------------------------------------

  /** The table after a write, and the `(success, error)` pair the write returns. */
  datatype Outcome = Outcome(store: Store, success: bool, error: Option<string>)

  /** The first NOT NULL column, in declaration order, that the fields leave NULL. */
  function MissingRequired(f: Fields): (r: Option<Column>)
    ensures r.None? <==> f.firstName.Some? && f.lastName.Some? && f.email.Some?
    ensures r.Some? ==> Missing(f, r.value)
    ensures r.Some? ==> forall c | Position(c) < Position(r.value) :: !Missing(f, c)
  {
    if f.firstName.None? then Some(FirstNameColumn)
    else if f.lastName.None? then Some(LastNameColumn)
    else if f.email.None? then Some(EmailColumn)
    else None
  }

  predicate EmailInUse(st: Store, e: string) {
    exists id | id in st.rows :: st.rows[id].email == e
  }

  predicate EmailHeldByOther(st: Store, id: nat, e: string) {
    exists other | other in st.rows :: other != id && st.rows[other].email == e
  }

  /** The row's columns hold exactly the given values. */
  predicate HasFields(p: Patient, f: Fields) {
    && f.firstName == Some(p.firstName)
    && f.lastName == Some(p.lastName)
    && f.address == p.address
    && f.email == Some(p.email)
    && f.phone == p.phone
    && f.dateOfBirth == p.dateOfBirth
    && f.dateOfEntry == p.dateOfEntry
  }

  function RowOf(id: nat, f: Fields): (p: Patient)
    requires MissingRequired(f).None?
    ensures p.id == id && HasFields(p, f)
  {
    Patient(id, f.firstName.value, f.lastName.value, f.address, f.email.value,
            f.phone, f.dateOfBirth, f.dateOfEntry)
  }

  /**
   * `add_patient`: insert one row under a fresh id and return `(True, None)`
   * (not the id), or change nothing and return `(False, message)`.
   */
  function AddPatient(st: Store, f: Fields): (r: Outcome)
    requires Valid(st)
    ensures Valid(r.store)
    ensures r.success <==> MissingRequired(f).None? && !EmailInUse(st, f.email.value)
    ensures !r.success ==> r.store == st && r.error.Some?
    ensures MissingRequired(f).Some? ==> r.error == Some(SqliteMessage(NotNull(MissingRequired(f).value)))
    ensures MissingRequired(f).None? && EmailInUse(st, f.email.value) ==> r.error == Some(DuplicateEmailMessage)
    ensures r.success ==>
      && r.error.None?
      && r.store.rows.Keys == st.rows.Keys + {st.nextId}
      && (forall id | id in st.rows :: id < st.nextId && r.store.rows[id] == st.rows[id])
      && r.store.rows[st.nextId].id == st.nextId
      && HasFields(r.store.rows[st.nextId], f)
      && r.store.nextId == st.nextId + 1
  {
    match MissingRequired(f)
    case Some(c) => Outcome(st, false, Some(Reported(NotNull(c))))
    case None =>
      if EmailInUse(st, f.email.value) then Outcome(st, false, Some(Reported(UniqueEmail)))
      else Outcome(Store(st.rows[st.nextId := RowOf(st.nextId, f)], st.nextId + 1), true, None)
  }

  /** `get_patient_by_id`: the row with that id, or `None`. */
  function GetPatient(st: Store, id: nat): (r: Option<Patient>)
    requires Valid(st)
    ensures r.Some? <==> id in st.rows
    ensures r.Some? ==> r.value.id == id && r.value == st.rows[id]
  {
    if id in st.rows then Some(st.rows[id]) else None
  }

  /**
   * `update_patient`: overwrite every column but the id of the row with that id.
   * An absent id matches no row, so nothing is checked and `(True, None)` comes back.
   */
  function UpdatePatient(st: Store, id: nat, f: Fields): (r: Outcome)
    requires Valid(st)
    ensures Valid(r.store)
    ensures id !in st.rows ==> r == Outcome(st, true, None)
    ensures id in st.rows ==>
      (r.success <==> MissingRequired(f).None? && !EmailHeldByOther(st, id, f.email.value))
    ensures !r.success ==> r.store == st && r.error.Some?
    ensures id in st.rows && MissingRequired(f).Some? ==>
      r.error == Some(SqliteMessage(NotNull(MissingRequired(f).value)))
    ensures id in st.rows && MissingRequired(f).None? && EmailHeldByOther(st, id, f.email.value) ==>
      r.error == Some(DuplicateEmailMessage)
    ensures r.success ==>
      && r.error.None?
      && r.store.nextId == st.nextId
      && r.store.rows.Keys == st.rows.Keys
      && (forall other | other in st.rows && other != id :: r.store.rows[other] == st.rows[other])
    ensures r.success && id in st.rows ==> r.store.rows[id].id == id && HasFields(r.store.rows[id], f)
  {
    if id !in st.rows then Outcome(st, true, None)
    else match MissingRequired(f)
      case Some(c) => Outcome(st, false, Some(Reported(NotNull(c))))
      case None =>
        if EmailHeldByOther(st, id, f.email.value) then Outcome(st, false, Some(Reported(UniqueEmail)))
        else Outcome(Store(st.rows[id := RowOf(id, f)], st.nextId), true, None)
  }

  /** `delete_patient`: remove the row with that id, if there is one. */
  function DeletePatient(st: Store, id: nat): (r: Store)
    requires Valid(st)
    ensures Valid(r)
    ensures id !in r.rows
    ensures forall other | other != id :: (other in r.rows <==> other in st.rows)
    ensures forall other | other in r.rows :: r.rows[other] == st.rows[other]
    ensures r.nextId == st.nextId
  {
    Store(st.rows - {id}, st.nextId)
  }

  /** Deleting is a no-op on an absent id, so deleting twice is deleting once. */
  lemma DeleteTwice(st: Store, id: nat)
    requires Valid(st)
    ensures DeletePatient(DeletePatient(st, id), id) == DeletePatient(st, id)
  {
  }

  /** A successful add stores a row that reads back with the given values under the new id. */
  lemma AddThenGet(st: Store, f: Fields)
    requires Valid(st) && AddPatient(st, f).success
    ensures var r := AddPatient(st, f);
      && GetPatient(st, st.nextId).None?
      && GetPatient(r.store, st.nextId).Some?
      && HasFields(GetPatient(r.store, st.nextId).value, f)
  {
  }

  /** A successful update keeps the id and reads back with the new values. */
  lemma UpdateThenGet(st: Store, id: nat, f: Fields)
    requires Valid(st) && id in st.rows && UpdatePatient(st, id, f).success
    ensures var p := GetPatient(UpdatePatient(st, id, f).store, id);
      p.Some? && p.value.id == id && HasFields(p.value, f)
  {
  }

  // ---------------------------------------------------------------------
  // Sequences of writes
  // ---------------------------------------------------------------------

  datatype Op = Add(fields: Fields) | Update(id: nat, fields: Fields) | Delete(id: nat)

  /** One write, as the caller issues it. */
  function Apply(st: Store, op: Op): (r: Store)
    requires Valid(st)
    ensures Valid(r)
    ensures st.nextId <= r.nextId
    ensures forall id | id in r.rows && id < st.nextId :: id in st.rows
  {
    match op
    case Add(f) => AddPatient(st, f).store
    case Update(id, f) => UpdatePatient(st, id, f).store
    case Delete(id) => DeletePatient(st, id)
  }

  /**
   * Any sequence of writes keeps the table valid, never lowers the counter, and
   * never brings back an id that was below the counter and absent: ids are not reused.
   */
  function Run(st: Store, ops: seq<Op>): (r: Store)
    requires Valid(st)
    ensures Valid(r)
    ensures st.nextId <= r.nextId
    ensures forall id | id in r.rows && id < st.nextId :: id in st.rows
    decreases |ops|
  {
    if |ops| == 0 then st else Run(Apply(st, ops[0]), ops[1..])
  }

  /** Once deleted, an id never names a row again, whatever writes follow. */
  lemma DeletedIdStaysFree(st: Store, id: nat, ops: seq<Op>)
    requires Valid(st) && id in st.rows
    ensures id !in Run(DeletePatient(st, id), ops).rows
  {
  }
}

=== FILE: queries.dfy ===
/**
 * The read side of the store (crudapp.py, `get_all_patients`, `search_patients`,
 * `get_all_last_names`, `get_all_email_domains`): every query is a function of
 * the table value.
 */
module Queries {
  import opened Optional
  import opened Strings
  import opened TextOrder
  import opened SqlLike
  import opened Patients

  // ---------------------------------------------------------------------
  // ORDER BY id DESC
  // ---------------------------------------------------------------------

  /** Newest first: ids strictly decrease along the sequence. */
  predicate IdsDescending(ps: seq<Patient>) {
    forall i, j | 0 <= i < j < |ps| :: ps[i].id > ps[j].id
  }

  /** The rows with id below `n`, newest first. */
  function RowsBelow(rows: map<nat, Patient>, n: nat): (r: seq<Patient>)
    requires forall id | id in rows :: rows[id].id == id
    ensures IdsDescending(r)
    ensures forall p :: p in r <==> p.id < n && p.id in rows && rows[p.id] == p
  {
    if n == 0 then []
    else
      var older := RowsBelow(rows, n - 1);
      if n - 1 in rows then [rows[n - 1]] + older else older
  }

  /** `get_all_patients`: every row, `ORDER BY id DESC`. */
  function AllPatients(st: Store): (r: seq<Patient>)
    requires Valid(st)
    ensures IdsDescending(r)
    ensures forall p :: p in r <==> p.id in st.rows && st.rows[p.id] == p
  {
    RowsBelow(st.rows, st.nextId)
  }

  lemma NonEmptyHasRow(ps: seq<Patient>)
    ensures |ps| > 0 <==> exists p :: p in ps
  {
    if |ps| > 0 {
      assert ps[0] in ps;
    }
  }

  /** Two newest-first sequences with the same rows start with the same row. */
  lemma SameNewest(xs: seq<Patient>, ys: seq<Patient>)
    requires IdsDescending(xs) && IdsDescending(ys)
    requires forall p :: p in xs <==> p in ys
    requires |xs| > 0 && |ys| > 0
    ensures xs[0] == ys[0]
  {
    assert xs[0] in ys && ys[0] in xs;
    var k :| 0 <= k < |ys| && ys[k] == xs[0];
    var m :| 0 <= m < |xs| && xs[m] == ys[0];
    assert ys[0].id >= ys[k].id && xs[0].id >= xs[m].id;
  }

  /** With the newest row removed from both, the rest still agree. */
  lemma SameRest(xs: seq<Patient>, ys: seq<Patient>)
    requires IdsDescending(xs) && IdsDescending(ys)
    requires forall p :: p in xs <==> p in ys
    requires |xs| > 0 && |ys| > 0 && xs[0] == ys[0]
    ensures forall p :: p in xs[1..] <==> p in ys[1..]
  {
    forall p ensures p in xs[1..] <==> p in ys[1..] {
      if p in xs[1..] {
        var m :| 1 <= m < |xs| && xs[m] == p;
        assert p.id < xs[0].id && p in ys;
      }
      if p in ys[1..] {
        var m :| 1 <= m < |ys| && ys[m] == p;
        assert p.id < ys[0].id && p in xs;
      }
    }
  }

  /** Two newest-first sequences with the same rows are the same sequence. */
  lemma {:induction false} DescendingUnique(xs: seq<Patient>, ys: seq<Patient>)
    requires IdsDescending(xs) && IdsDescending(ys)
    requires forall p :: p in xs <==> p in ys
    ensures xs == ys
  {
    NonEmptyHasRow(xs);
    NonEmptyHasRow(ys);
    if |xs| > 0 && |ys| > 0 {
      SameNewest(xs, ys);
      SameRest(xs, ys);
      DescendingUnique(xs[1..], ys[1..]);
      assert xs == [xs[0]] + xs[1..] && ys == [ys[0]] + ys[1..];
    }
  }

  /** `get_all_patients` is the one newest-first listing of the table. */
  lemma AllPatientsIsTheListing(st: Store, xs: seq<Patient>)
    requires Valid(st) && IdsDescending(xs)
    requires forall p :: p in xs <==> p.id in st.rows && st.rows[p.id] == p
    ensures xs == AllPatients(st)
  {
    DescendingUnique(xs, AllPatients(st));
  }

  /** After a successful add, the new row heads the listing. */
  lemma AddedRowComesFirst(st: Store, f: Fields)
    requires Valid(st) && AddPatient(st, f).success
    ensures var all := AllPatients(AddPatient(st, f).store);
      |all| > 0 && all[0].id == st.nextId && HasFields(all[0], f)
  {
    var st' := AddPatient(st, f).store;
    var all := AllPatients(st');
    assert st'.rows[st.nextId] in all;
    assert all[0].id == st.nextId by {
      var k :| 0 <= k < |all| && all[k] == st'.rows[st.nextId];
      assert all[0] in all;
      assert all[0].id in st'.rows;
    }
  }

  // ---------------------------------------------------------------------
  // search_patients
  // ---------------------------------------------------------------------

  /** A filter value is in force unless it is `None`, empty, or the literal `"All"`. */
  predicate Active(filter: Option<string>) {
    filter.Some? && filter.value != "" && filter.value != "All"
  }

  /** `first_name LIKE ? OR last_name LIKE ? OR email LIKE ? OR phone LIKE ?` with `%query%`; a NULL phone never matches. */
  predicate MatchesText(p: Patient, query: string) {
    var pattern := "%" + query + "%";
    || Like(pattern, p.firstName)
    || Like(pattern, p.lastName)
    || Like(pattern, p.email)
    || (p.phone.Some? && Like(pattern, p.phone.value))
  }

  /** The conjunction of the filters that are in force. */
  predicate Selected(p: Patient, query: string, lastName: Option<string>, domain: Option<string>) {
    && (query == "" || MatchesText(p, query))
    && (!Active(lastName) || p.lastName == lastName.value)
    && (!Active(domain) || Like("%@" + domain.value, p.email))
  }

  function KeepSelected(ps: seq<Patient>, query: string, lastName: Option<string>, domain: Option<string>)
    : (r: seq<Patient>)
    ensures forall p :: p in r <==> p in ps && Selected(p, query, lastName, domain)
    ensures IdsDescending(ps) ==> IdsDescending(r)
  {
    if |ps| == 0 then []
    else
      var rest := KeepSelected(ps[1..], query, lastName, domain);
      assert IdsDescending(ps) ==> forall j | 0 <= j < |rest| :: rest[j].id < ps[0].id by {
        if IdsDescending(ps) {
          forall j | 0 <= j < |rest| ensures rest[j].id < ps[0].id {
            assert rest[j] in ps[1..];
            var k :| 0 <= k < |ps[1..]| && ps[1..][k] == rest[j];
            assert ps[k + 1] == rest[j];
          }
        }
      }
      if Selected(ps[0], query, lastName, domain) then [ps[0]] + rest else rest
  }

  /** `search_patients`: the rows meeting every filter in force, newest first. */
  function SearchPatients(st: Store, query: string, lastName: Option<string>, domain: Option<string>)
    : (r: seq<Patient>)
    requires Valid(st)
    ensures IdsDescending(r)
    ensures forall p :: p in r <==> p.id in st.rows && st.rows[p.id] == p && Selected(p, query, lastName, domain)
  {
    KeepSelected(AllPatients(st), query, lastName, domain)
  }

  /** With no filter in force, a search lists the whole table, as `get_all_patients` does. */
  lemma SearchWithoutFilters(st: Store, lastName: Option<string>, domain: Option<string>)
    requires Valid(st) && !Active(lastName) && !Active(domain)
    ensures SearchPatients(st, "", lastName, domain) == AllPatients(st)
  {
    DescendingUnique(SearchPatients(st, "", lastName, domain), AllPatients(st));
  }

  /** For a query without `%` or `_`, the text filter is a case-insensitive substring test. */
  lemma TextFilterIsSubstring(p: Patient, query: string)
    requires NoWildcards(query)
    ensures MatchesText(p, query) <==>
      || ContainsFolded(p.firstName, query)
      || ContainsFolded(p.lastName, query)
      || ContainsFolded(p.email, query)
      || (p.phone.Some? && ContainsFolded(p.phone.value, query))
  {
    LikeContains(query, p.firstName);
    LikeContains(query, p.lastName);
    LikeContains(query, p.email);
    if p.phone.Some? {
      LikeContains(query, p.phone.value);
    }
  }

  /** For a domain without `%` or `_`, the domain filter is a case-insensitive test that the email ends with `"@" + domain`. */
  lemma DomainFilterIsSuffix(email: string, domain: string)
    requires NoWildcards(domain)
    ensures Like("%@" + domain, email) <==> EndsWithFolded(email, "@" + domain)
  {
    assert "%@" + domain == "%" + ("@" + domain);
    assert ("@" + domain)[0] == '@';
    assert forall i | 1 <= i < |"@" + domain| :: ("@" + domain)[i] == domain[i - 1];
    LikeEndsWith("@" + domain, email);
  }

  // ---------------------------------------------------------------------
  // get_all_last_names
  // ---------------------------------------------------------------------

  function LastNamesOf(ps: seq<Patient>): (r: seq<string>)
    ensures forall n :: n in r <==> exists p | p in ps :: p.lastName == n
  {
    if |ps| == 0 then [] else [ps[0].lastName] + LastNamesOf(ps[1..])
  }

  /** Drop the empty strings (Python's `if row["last_name"]`), keeping the order. */
  function NonEmpty(xs: seq<string>): (r: seq<string>)
    ensures forall x :: x in r <==> x in xs && x != ""
    ensures StrictlySorted(xs) ==> StrictlySorted(r)
  {
    if |xs| == 0 then []
    else
      var rest := NonEmpty(xs[1..]);
      assert StrictlySorted(xs) ==> forall j | 0 <= j < |rest| :: LexLess(xs[0], rest[j]) by {
        if StrictlySorted(xs) {
          forall j | 0 <= j < |rest| ensures LexLess(xs[0], rest[j]) {
            assert rest[j] in xs[1..];
            var k :| 0 <= k < |xs[1..]| && xs[1..][k] == rest[j];
            assert xs[k + 1] == rest[j];
          }
        }
      }
      if xs[0] == "" then rest else [xs[0]] + rest
  }

  /** Some row has this last name. */
  predicate HasLastName(st: Store, n: string) {
    exists id | id in st.rows :: st.rows[id].lastName == n
  }

  /** `get_all_last_names`: the distinct non-empty last names, in increasing order. */
  function AllLastNames(st: Store): (r: seq<string>)
    requires Valid(st)
    ensures StrictlySorted(r)
    ensures forall n :: n in r <==> n != "" && HasLastName(st, n)
  {
    var all := AllPatients(st);
    var names := LastNamesOf(all);
    assert forall n :: n in names <==> HasLastName(st, n) by {
      forall n | HasLastName(st, n) ensures n in names {
        var id :| id in st.rows && st.rows[id].lastName == n;
        assert st.rows[id] in all;
      }
    }
    NonEmpty(SortedDistinct(names))
  }

  /** Any strictly sorted list of exactly those names is `get_all_last_names`. */
  lemma AllLastNamesIsTheSortedSet(st: Store, xs: seq<string>)
    requires Valid(st) && StrictlySorted(xs)
    requires forall n :: n in xs <==> n != "" && HasLastName(st, n)
    ensures xs == AllLastNames(st)
  {
    SortedUnique(xs, AllLastNames(st));
  }

  // ---------------------------------------------------------------------
  // get_all_email_domains
  // ---------------------------------------------------------------------

  /** `email.split("@")[1]` when `"@" in email`: the text between the first and the second `@`. */
  function DomainOf(email: string): (r: Option<string>)
    ensures r.Some? <==> '@' in email
    ensures r.Some? ==> '@' !in r.value
  {
    ContainsChar(email, '@');
    if '@' in email then
      var d := SplitOn(email, "@")[1];
      ContainsChar(d, '@');
      Some(d)
    else None
  }

  /** With a single `@`, the domain is everything after it. */
  lemma DomainOfSingleAt(email: string, at: nat)
    requires at < |email| && email[at] == '@'
    requires forall j | 0 <= j < |email| && email[j] == '@' :: j == at
    ensures DomainOf(email) == Some(email[at + 1..])
  {
    var rest := email[at + 1..];
    assert OccursAt(email, "@", at);
    forall j | 0 <= j < at ensures !OccursAt(email, "@", j) {
      assert email[j..j + 1] == [email[j]];
    }
    assert IndexOf(email, "@") == Some(at);
    ContainsChar(rest, '@');
    assert '@' !in rest by {
      forall j | 0 <= j < |rest| ensures rest[j] != '@' {
        assert rest[j] == email[at + 1 + j];
      }
    }
    SecondPiece(email, "@", at);
  }

  /** The first `@` of `s` sits at `i` when no `@` comes before it. */
  lemma FirstAtSign(s: string, i: nat)
    requires i < |s| && s[i] == '@'
    requires forall k | 0 <= k < i :: s[k] != '@'
    ensures IndexOf(s, "@") == Some(i)
  {
    assert OccursAt(s, "@", i);
    forall k | 0 <= k < i ensures !OccursAt(s, "@", k) {
      assert s[k..k + 1] == [s[k]];
    }
  }

  /** The domain is the text between the first `@` and the next `@`, or the end of the email. */
  lemma DomainOfBetweenAts(email: string, i: nat, j: nat)
    requires i < j <= |email| && email[i] == '@'
    requires forall k | 0 <= k < i :: email[k] != '@'
    requires forall k | i < k < j :: email[k] != '@'
    requires j == |email| || email[j] == '@'
    ensures DomainOf(email) == Some(email[i + 1..j])
  {
    var rest := email[i + 1..];
    FirstAtSign(email, i);
    SecondPiece(email, "@", i);
    if j == |email| {
      ContainsChar(rest, '@');
      assert '@' !in rest by {
        forall k | 0 <= k < |rest| ensures rest[k] != '@' {
          assert rest[k] == email[i + 1 + k];
        }
      }
      assert rest == email[i + 1..j];
    } else {
      FirstAtSign(rest, j - i - 1);
      assert SplitOn(rest, "@")[0] == rest[..j - i - 1];
      assert rest[..j - i - 1] == email[i + 1..j];
    }
  }

  function DomainsOf(ps: seq<Patient>): (r: seq<string>)
    ensures forall d :: d in r <==> exists p | p in ps :: DomainOf(p.email) == Some(d)
  {
    if |ps| == 0 then []
    else
      var rest := DomainsOf(ps[1..]);
      assert forall p | p in ps[1..] :: p in ps;
      match DomainOf(ps[0].email)
      case None => rest
      case Some(d) => [d] + rest
  }

  /** Some row's email has this domain. */
  predicate HasDomain(st: Store, d: string) {
    exists id | id in st.rows :: DomainOf(st.rows[id].email) == Some(d)
  }

  /** `get_all_email_domains`: `sorted` of the set of domains of the emails that contain `@`. */
  function AllEmailDomains(st: Store): (r: seq<string>)
    requires Valid(st)
    ensures StrictlySorted(r)
    ensures forall d :: d in r <==> HasDomain(st, d)
  {
    var all := AllPatients(st);
    var domains := DomainsOf(all);
    assert forall d :: d in domains <==> HasDomain(st, d) by {
      forall d | HasDomain(st, d) ensures d in domains {
        var id :| id in st.rows && DomainOf(st.rows[id].email) == Some(d);
        assert st.rows[id] in all;
      }
    }
    SortedDistinct(DomainsOf(all))
  }

  /** An email with a single `@` matches the domain filter built from its own domain. */
  lemma OwnDomainMatches(e: string, at: nat)
    requires at < |e| && e[at] == '@'
    ensures Like("%@" + e[at + 1..], e)
  {
    var d := e[at + 1..];
    assert "%@" + d == "%" + ("@" + d);
    assert e[at..] == "@" + d;
    LikeReflexive("@" + d);
    LikeAnyPrefix("@" + d, e);
  }

  /**
   * A domain offered for a row whose email has a single `@` is in the domain
   * list, and selects that row when used as the domain filter, whatever
   * characters the domain contains.
   */
  lemma OfferedDomainSelectsItsRows(st: Store, id: nat, at: nat)
    requires Valid(st) && id in st.rows
    requires at < |st.rows[id].email| && st.rows[id].email[at] == '@'
    requires forall j | 0 <= j < |st.rows[id].email| && st.rows[id].email[j] == '@' :: j == at
    ensures var d := st.rows[id].email[at + 1..];
      d in AllEmailDomains(st) && st.rows[id] in SearchPatients(st, "", None, Some(d))
  {
    var e := st.rows[id].email;
    DomainOfSingleAt(e, at);
    assert HasDomain(st, e[at + 1..]);
    OwnDomainMatches(e, at);
  }
}

=== FILE: sqllike.dfy ===
/**
 * SQLite's `LIKE` operator as the store uses it: no ESCAPE clause, `%` matches
 * any run of characters, `_` matches exactly one, and every other pattern
 * character matches itself with ASCII-only case folding (the default when
 * `case_sensitive_like` is off and no ICU extension is loaded).
 */
module SqlLike {

  /** The folding `LIKE` applies: `A`..`Z` to `a`..`z`, every other character unchanged. */
  function AsciiLower(c: char): char
  {
    if 'A' <= c <= 'Z' then (c as int + 32) as char else c
  }

  predicate FoldEq(a: char, b: char) { AsciiLower(a) == AsciiLower(b) }

  predicate NoWildcards(q: string) { forall i | 0 <= i < |q| :: q[i] != '%' && q[i] != '_' }

  predicate NoPercent(q: string) { forall i | 0 <= i < |q| :: q[i] != '%' }

  /** Equal up to ASCII case. */
  predicate FoldedEqual(a: string, b: string) {
    |a| == |b| && forall i | 0 <= i < |a| :: FoldEq(a[i], b[i])
  }

  /**
   * `s LIKE p`. Without `%`, every pattern character stands for exactly one
   * character of the text; without any wildcard, the pattern matches exactly
   * the texts equal to it up to ASCII case.
   */
  predicate Like(p: string, s: string)
    ensures NoPercent(p) && Like(p, s) ==> |s| == |p|
    ensures NoWildcards(p) ==> (Like(p, s) <==> FoldedEqual(s, p))
    decreases |p| + |s|
  {
    if |p| == 0 then |s| == 0
    else if p[0] == '%' then Like(p[1..], s) || (|s| > 0 && Like(p, s[1..]))
    else if |s| == 0 then false
    else
      TailsOf(p, s);
      (p[0] == '_' || FoldEq(p[0], s[0])) && Like(p[1..], s[1..])
  }

  /** What the rest of the pattern and of the text inherit from the whole. */
  lemma TailsOf(p: string, s: string)
    requires |p| > 0 && |s| > 0
    ensures NoPercent(p) ==> NoPercent(p[1..])
    ensures NoWildcards(p) ==> NoWildcards(p[1..])
    ensures FoldedEqual(s, p) <==> FoldEq(s[0], p[0]) && FoldedEqual(s[1..], p[1..])
  {
    if FoldEq(s[0], p[0]) && FoldedEqual(s[1..], p[1..]) {
      forall i | 0 <= i < |s| ensures FoldEq(s[i], p[i]) {
        if i > 0 {
          assert s[1..][i - 1] == s[i] && p[1..][i - 1] == p[i];
        }
      }
    }
    if FoldedEqual(s, p) {
      forall i | 0 <= i < |s| - 1 ensures FoldEq(s[1..][i], p[1..][i]) {
        assert s[1..][i] == s[i + 1] && p[1..][i] == p[i + 1];
      }
    }
    assert forall i | 0 <= i < |p| - 1 :: p[1..][i] == p[i + 1];
  }

  /** `q` occurs in `s` at position `i`, ignoring ASCII case. */
  predicate FoldedAt(s: string, q: string, i: int) {
    0 <= i <= |s| - |q| && FoldedEqual(s[i..i + |q|], q)
  }

  /** `q` occurs in `s`, ignoring ASCII case. */
  predicate ContainsFolded(s: string, q: string) {
    exists i | 0 <= i <= |s| :: FoldedAt(s, q, i)
  }

  /** `s` ends with `q`, ignoring ASCII case. */
  predicate EndsWithFolded(s: string, q: string) {
    |q| <= |s| && FoldedEqual(s[|s| - |q|..], q)
  }

  /** A wildcard-free head of a pattern must match the head of the text character by character. */
  lemma {:induction false} LikeLiteralPrefix(q: string, t: string, s: string)
    requires NoWildcards(q)
    ensures Like(q + t, s) <==> |q| <= |s| && FoldedEqual(s[..|q|], q) && Like(t, s[|q|..])
    decreases |q|
  {
    if |q| == 0 {
      assert q + t == t;
      assert s[|q|..] == s;
    } else {
      var p := q + t;
      assert p[0] == q[0] && p[1..] == q[1..] + t;
      if |s| > 0 {
        LikeLiteralPrefix(q[1..], t, s[1..]);
        if |q| <= |s| {
          assert s[1..][|q| - 1..] == s[|q|..];
          assert s[1..][..|q| - 1] == s[..|q|][1..];
        }
      }
    }
  }

  /** A leading `%` lets the rest of the pattern match any suffix of the text. */
  lemma {:induction false} LikeAnyPrefix(r: string, s: string)
    ensures Like("%" + r, s) <==> exists i | 0 <= i <= |s| :: Like(r, s[i..])
    decreases |s|
  {
    var p := "%" + r;
    assert p[1..] == r;
    assert s[0..] == s;
    if |s| > 0 {
      LikeAnyPrefix(r, s[1..]);
      forall i | 0 <= i <= |s| - 1 ensures s[1..][i..] == s[i + 1..] { }
      if Like(p, s[1..]) {
        var i :| 0 <= i <= |s| - 1 && Like(r, s[1..][i..]);
        assert Like(r, s[i + 1..]);
      }
      if exists i | 0 <= i <= |s| :: Like(r, s[i..]) {
        var i :| 0 <= i <= |s| && Like(r, s[i..]);
        if i > 0 {
          assert Like(r, s[1..][i - 1..]);
        }
      }
    }
  }

  /** A lone `%` matches everything. */
  lemma LikePercent(s: string)
    ensures Like("%", s)
  {
    LikeAnyPrefix("", s);
    assert "%" + "" == "%";
    assert Like("", s[|s|..]);
  }

  /** `s LIKE '%' || q || '%'` is a case-insensitive substring test when `q` has no wildcards. */
  lemma LikeContains(q: string, s: string)
    requires NoWildcards(q)
    ensures Like("%" + q + "%", s) <==> ContainsFolded(s, q)
  {
    assert "%" + q + "%" == "%" + (q + "%");
    LikeAnyPrefix(q + "%", s);
    forall i | 0 <= i <= |s|
      ensures Like(q + "%", s[i..]) <==> FoldedAt(s, q, i)
    {
      LikeLiteralPrefix(q, "%", s[i..]);
      if i + |q| <= |s| {
        LikePercent(s[i..][|q|..]);
        assert s[i..][..|q|] == s[i..i + |q|];
      }
    }
  }

  /** `s LIKE '%' || q` is a case-insensitive suffix test when `q` has no wildcards. */
  lemma LikeEndsWith(q: string, s: string)
    requires NoWildcards(q)
    ensures Like("%" + q, s) <==> EndsWithFolded(s, q)
  {
    LikeAnyPrefix(q, s);
    forall i | 0 <= i <= |s|
      ensures Like(q, s[i..]) <==> i + |q| == |s| && FoldedEqual(s[i..], q)
    {
      assert q + "" == q;
      LikeLiteralPrefix(q, "", s[i..]);
      if i + |q| <= |s| {
        assert s[i..][..|q|] == s[i..i + |q|];
      }
    }
    if EndsWithFolded(s, q) {
      assert Like(q, s[|s| - |q|..]);
    }
  }

  /** Every pattern matches itself: `%` and `_` each match their own character. */
  lemma {:induction false} LikeReflexive(p: string)
    ensures Like(p, p)
    decreases |p|
  {
    if |p| > 0 {
      LikeReflexive(p[1..]);
      if p[0] == '%' {
        assert Like(p[1..], p[1..]);
        assert Like(p, p[1..]);
      }
    }
  }
}

=== FILE: strings.dfy ===
/**
 * Text helpers shared by the model: the character classes the validators use,
 * substring occurrence, Python's `str.split(sep)`, `str.strip()`, `str.replace(c, "")`,
 * and the decimal conversions `str(n)` and `int(s)`.
 */
module Strings {
  import opened Optional

  // ---------------------------------------------------------------------
  // Character classes
  // ---------------------------------------------------------------------

  predicate IsAsciiDigit(c: char) { '0' <= c <= '9' }

  predicate IsAsciiLetter(c: char) { 'A' <= c <= 'Z' || 'a' <= c <= 'z' }

  predicate AllDigits(s: string) { forall i | 0 <= i < |s| :: IsAsciiDigit(s[i]) }

  /** The characters for which Python's `str.isspace()` holds; `str.strip()` removes exactly these. */
  predicate IsPyWhitespace(c: char) {
    || c == ' '
    || '\t' <= c <= '\r'
    || '\U{1C}' <= c <= '\U{1F}'
    || c == '\U{85}' || c == '\U{A0}' || c == '\U{1680}'
    || '\U{2000}' <= c <= '\U{200A}'
    || c == '\U{2028}' || c == '\U{2029}' || c == '\U{202F}' || c == '\U{205F}' || c == '\U{3000}'
  }

  /**
   * The ASCII information separators. `str.isspace()` holds for them, but
   * `int()` does not skip them: it skips only the ASCII whitespace
   * `' '` and `'\t'`..`'\r'`, and the non-ASCII characters `isspace()` holds for.
   */
  predicate IsInfoSeparator(c: char) { '\U{1C}' <= c <= '\U{1F}' }

  // ---------------------------------------------------------------------
  // Occurrences of a pattern
  // ---------------------------------------------------------------------

  predicate OccursAt(s: string, pat: string, i: int) {
    0 <= i && i + |pat| <= |s| && s[i..i + |pat|] == pat
  }

  /** Python's `pat in s`. */
  predicate Contains(s: string, pat: string) {
    exists i | 0 <= i <= |s| :: OccursAt(s, pat, i)
  }

  /** An occurrence inside a prefix is an occurrence in the whole string, and conversely. */
  lemma OccursInPrefix(s: string, pat: string, n: nat, i: int)
    requires n <= |s|
    ensures OccursAt(s[..n], pat, i) <==> OccursAt(s, pat, i) && i + |pat| <= n
  {
    if 0 <= i && i + |pat| <= n {
      assert s[..n][i..i + |pat|] == s[i..i + |pat|];
    }
  }

  /** An occurrence inside a suffix is an occurrence in the whole string, shifted. */
  lemma OccursInSuffix(s: string, pat: string, n: nat, i: int)
    requires n <= |s|
    ensures OccursAt(s[n..], pat, i) <==> OccursAt(s, pat, i + n) && 0 <= i
  {
    if 0 <= i && i + n + |pat| <= |s| {
      assert s[n..][i..i + |pat|] == s[i + n..i + n + |pat|];
    }
  }

  /** A one-character pattern occurs exactly where the character does. */
  lemma ContainsChar(s: string, c: char)
    ensures Contains(s, [c]) <==> c in s
  {
    if c in s {
      var i :| 0 <= i < |s| && s[i] == c;
      assert OccursAt(s, [c], i);
    }
    if Contains(s, [c]) {
      var i :| 0 <= i <= |s| && OccursAt(s, [c], i);
      assert s[i..i + 1] == [c];
      assert s[i] == c;
    }
  }

  /** The first occurrence of `pat` at or after position `k`. */
  function IndexFrom(s: string, pat: string, k: nat): (r: Option<nat>)
    ensures r.Some? ==> k <= r.value && OccursAt(s, pat, r.value)
    ensures r.Some? ==> forall j | k <= j < r.value :: !OccursAt(s, pat, j)
    ensures r.None? ==> forall j | k <= j :: !OccursAt(s, pat, j)
    decreases |s| - k
  {
    if k + |pat| > |s| then None
    else if s[k..k + |pat|] == pat then Some(k)
    else IndexFrom(s, pat, k + 1)
  }

  /** Python's `s.find(pat)`, with `None` for -1. */
  function IndexOf(s: string, pat: string): (r: Option<nat>)
    ensures r.None? <==> !Contains(s, pat)
    ensures r.Some? ==> OccursAt(s, pat, r.value) && forall j | 0 <= j < r.value :: !OccursAt(s, pat, j)
  {
    IndexFrom(s, pat, 0)
  }

  /** The last occurrence of `pat` that starts at or before position `k`. */
  function LastAtOrBefore(s: string, pat: string, k: int): (r: Option<nat>)
    ensures r.Some? ==> r.value <= k && OccursAt(s, pat, r.value)
    ensures r.Some? ==> forall j | r.value < j <= k :: !OccursAt(s, pat, j)
    ensures r.None? ==> forall j | j <= k :: !OccursAt(s, pat, j)
    decreases k + 1
  {
    if k < 0 then None
    else if OccursAt(s, pat, k) then Some(k)
    else LastAtOrBefore(s, pat, k - 1)
  }

  /** No occurrence starts after the one at `i`, so none lies in the text after it. */
  lemma NoneAfterLast(s: string, pat: string, i: nat)
    requires 0 < |pat| && i + |pat| <= |s|
    requires forall j | i < j :: !OccursAt(s, pat, j)
    ensures !Contains(s[i + |pat|..], pat)
  {
    var rest := s[i + |pat|..];
    forall j | 0 <= j <= |rest| ensures !OccursAt(rest, pat, j) {
      OccursInSuffix(s, pat, i + |pat|, j);
    }
  }

  /** Python's `s.rfind(pat)`, with `None` for -1. */
  function LastIndexOf(s: string, pat: string): (r: Option<nat>)
    ensures r.None? <==> !Contains(s, pat)
    ensures r.Some? ==> OccursAt(s, pat, r.value) && forall j | r.value < j :: !OccursAt(s, pat, j)
  {
    LastAtOrBefore(s, pat, |s| - |pat|)
  }

  // ---------------------------------------------------------------------
  // split / join / replace
  // ---------------------------------------------------------------------

  /** Python's `s.split(sep)` for a non-empty separator: cut at every occurrence, left to right. */
  function SplitOn(s: string, sep: string): (parts: seq<string>)
    requires |sep| > 0
    ensures |parts| >= 1
    ensures |parts| >= 2 <==> Contains(s, sep)
    ensures forall k | 0 <= k < |parts| :: !Contains(parts[k], sep)
    decreases |s|
  {
    match IndexOf(s, sep)
    case None => [s]
    case Some(i) =>
      var head := s[..i];
      assert !Contains(head, sep) by {
        forall j | 0 <= j <= |head| ensures !OccursAt(head, sep, j) {
          OccursInPrefix(s, sep, i, j);
        }
      }
      [head] + SplitOn(s[i + |sep|..], sep)
  }

  /** Python's `sep.join(parts)`. */
  function Join(parts: seq<string>, sep: string): string
  {
    if |parts| == 0 then ""
    else if |parts| == 1 then parts[0]
    else parts[0] + sep + Join(parts[1..], sep)
  }

  /** Splitting and joining back with the same separator gives the original text. */
  lemma {:induction false} JoinSplit(s: string, sep: string)
    requires |sep| > 0
    ensures Join(SplitOn(s, sep), sep) == s
    decreases |s|
  {
    match IndexOf(s, sep)
    case None =>
    case Some(i) =>
      var rest := s[i + |sep|..];
      JoinSplit(rest, sep);
      assert SplitOn(s, sep) == [s[..i]] + SplitOn(rest, sep);
      assert s == s[..i] + sep + rest by {
        assert s[i..i + |sep|] == sep;
      }
  }

  /** The text between the first and the second occurrence of `sep` (or the end): `s.split(sep)[1]`. */
  lemma SecondPiece(s: string, sep: string, i: nat)
    requires |sep| > 0 && IndexOf(s, sep) == Some(i)
    ensures SplitOn(s, sep)[1] == SplitOn(s[i + |sep|..], sep)[0]
    ensures !Contains(s[i + |sep|..], sep) ==> SplitOn(s, sep)[1] == s[i + |sep|..]
  {
  }

  /** Python's `s.replace(c, "")` for a single character `c`. */
  function RemoveChar(s: string, c: char): (r: string)
    ensures forall x :: x in r <==> x in s && x != c
    ensures c !in s ==> r == s
  {
    if |s| == 0 then []
    else (if s[0] == c then [] else [s[0]]) + RemoveChar(s[1..], c)
  }

  /** On one character, `replace(c, "")` drops it exactly when it is `c`. */
  lemma RemoveCharOne(x: char, c: char)
    ensures x == c ==> RemoveChar([x], c) == []
    ensures x != c ==> RemoveChar([x], c) == [x]
  {
    assert [x][1..] == [];
  }

  /** `replace(c, "")` works piece by piece: it keeps the order and the count of the other characters. */
  lemma RemoveCharAppend(a: string, b: string, c: char)
    ensures RemoveChar(a + b, c) == RemoveChar(a, c) + RemoveChar(b, c)
  {
    if |a| == 0 {
      assert a + b == b;
    } else {
      var h := if a[0] == c then [] else [a[0]];
      assert (a + b)[0] == a[0] && (a + b)[1..] == a[1..] + b;
      RemoveCharAppend(a[1..], b, c);
      calc {
        RemoveChar(a + b, c);
        h + RemoveChar(a[1..] + b, c);
        h + (RemoveChar(a[1..], c) + RemoveChar(b, c));
        (h + RemoveChar(a[1..], c)) + RemoveChar(b, c);
      }
    }
  }

  // ---------------------------------------------------------------------
  // strip
  // ---------------------------------------------------------------------

  /** The number of whitespace characters `s` starts with. */
  function LeadingSpace(s: string): (n: nat)
    ensures n <= |s|
    ensures forall k | 0 <= k < n :: IsPyWhitespace(s[k])
    ensures n < |s| ==> !IsPyWhitespace(s[n])
  {
    if |s| == 0 || !IsPyWhitespace(s[0]) then 0 else 1 + LeadingSpace(s[1..])
  }

  /** The number of whitespace characters `s` ends with. */
  function TrailingSpace(s: string): (n: nat)
    ensures n <= |s|
    ensures forall k | |s| - n <= k < |s| :: IsPyWhitespace(s[k])
    ensures n < |s| ==> !IsPyWhitespace(s[|s| - n - 1])
  {
    if |s| == 0 || !IsPyWhitespace(s[|s| - 1]) then 0 else 1 + TrailingSpace(s[..|s| - 1])
  }

  /** `r` is `s[i..i + |r|]`, with only whitespace before and after it. */
  predicate SlicedFrom(s: string, r: string, i: int) {
    && 0 <= i <= |s| - |r|
    && s[i..i + |r|] == r
    && (forall k | 0 <= k < i :: IsPyWhitespace(s[k]))
    && (forall k | i + |r| <= k < |s| :: IsPyWhitespace(s[k]))
  }

  /**
   * Python's `s.strip()`: the unique slice of `s` with only whitespace around it
   * and no whitespace at either of its ends.
   */
  function Strip(s: string): (r: string)
    ensures exists i | 0 <= i <= |s| - |r| :: SlicedFrom(s, r, i)
    ensures r != [] ==> !IsPyWhitespace(r[0]) && !IsPyWhitespace(r[|r| - 1])
    ensures r == [] <==> forall k | 0 <= k < |s| :: IsPyWhitespace(s[k])
  {
    var a := LeadingSpace(s);
    var t := s[a..];
    var b := TrailingSpace(t);
    var r := t[..|t| - b];
    assert s[a..a + |r|] == r;
    assert forall k | a + |r| <= k < |s| :: s[k] == t[k - a];
    assert SlicedFrom(s, r, a);
    r
  }

  /** Text with no whitespace at its ends is left alone by `strip()`. */
  lemma StripKeepsTrimmed(s: string)
    requires s != [] ==> !IsPyWhitespace(s[0]) && !IsPyWhitespace(s[|s| - 1])
    ensures Strip(s) == s
  {
    assert LeadingSpace(s) == 0;
    assert TrailingSpace(s) == 0;
  }

  /** `strip()` is idempotent. */
  lemma StripIdempotent(s: string)
    ensures Strip(Strip(s)) == Strip(s)
  {
    StripKeepsTrimmed(Strip(s));
  }

  // ---------------------------------------------------------------------
  // Decimal numerals: str(n) and int(s)
  // ---------------------------------------------------------------------

  function DigitValue(c: char): nat
    requires IsAsciiDigit(c)
  {
    c as int - '0' as int
  }

  /** The value of a string of decimal digits, most significant first. */
  function DecimalValue(ds: string): nat
    requires AllDigits(ds)
  {
    if |ds| == 0 then 0 else 10 * DecimalValue(ds[..|ds| - 1]) + DigitValue(ds[|ds| - 1])
  }

  /** Python's `str(n)` for a non-negative integer: the canonical numeral of `n`. */
  function Decimal(n: nat): (ds: string)
    ensures |ds| >= 1 && AllDigits(ds) && DecimalValue(ds) == n
    ensures |ds| > 1 ==> ds[0] != '0'
  {
    if n < 10 then [('0' as int + n) as char]
    else
      var prefix := Decimal(n / 10);
      var ds := prefix + [('0' as int + n % 10) as char];
      assert ds[..|ds| - 1] == prefix;
      ds
  }

  /**
   * The base-10 body `int()` accepts after the sign: digits, with single
   * underscores allowed between two digits.
   */
  predicate IntBody(t: string) {
    && |t| > 0 && IsAsciiDigit(t[0]) && IsAsciiDigit(t[|t| - 1])
    && (forall k | 0 <= k < |t| :: IsAsciiDigit(t[k]) || t[k] == '_')
    && (forall k | 0 <= k < |t| - 1 :: !(t[k] == '_' && t[k + 1] == '_'))
  }

  /**
   * Python's `int(s)` with ASCII digits: surrounding whitespace, an optional
   * sign, then an `IntBody`; `None` stands for the `ValueError` it raises
   * otherwise. An information separator can be neither skipped nor part of
   * the number, so any one of them makes `int()` fail; without them, the
   * whitespace `int()` skips is exactly what `strip()` removes.
   */
  function PyInt(s: string): (r: Option<int>)
    ensures r.Some? ==> forall k | 0 <= k < |s| :: !IsInfoSeparator(s[k])
    ensures r.Some? ==> |Strip(s)| > 0 && (IsAsciiDigit(Strip(s)[0]) || Strip(s)[0] == '-' || Strip(s)[0] == '+')
    ensures r.Some? && r.value < 0 ==> Strip(s)[0] == '-'
    ensures (forall k | 0 <= k < |s| :: !IsInfoSeparator(s[k])) && |Strip(s)| > 0 && AllDigits(Strip(s)) ==>
      r == Some(DecimalValue(Strip(s)))
  {
    var t := Strip(s);
    assert |t| > 0 && AllDigits(t) ==> SignedInt(t) == Some(DecimalValue(t)) by {
      if |t| > 0 && AllDigits(t) {
        SignedIntOfDigits(t);
      }
    }
    if exists k | 0 <= k < |s| :: IsInfoSeparator(s[k]) then None else SignedInt(t)
  }

  /** `int()` once the whitespace is gone: an optional sign, then an `IntBody`. */
  function SignedInt(t: string): Option<int> {
    if |t| > 0 && t[0] == '-' then
      match UnsignedInt(t[1..])
      case Some(v) => Some(-v)
      case None => None
    else if |t| > 0 && t[0] == '+' then UnsignedInt(t[1..])
    else UnsignedInt(t)
  }

  /** The value of an `IntBody`: its digits once the underscores are dropped. */
  function UnsignedInt(body: string): Option<int> {
    if IntBody(body) then
      UnderscoresRemoved(body);
      Some(DecimalValue(RemoveChar(body, '_')))
    else
      None
  }

  /** Dropping the underscores of an `IntBody` leaves only digits. */
  lemma UnderscoresRemoved(body: string)
    requires IntBody(body)
    ensures AllDigits(RemoveChar(body, '_'))
  {
    var digits := RemoveChar(body, '_');
    forall k | 0 <= k < |digits| ensures IsAsciiDigit(digits[k]) {
      assert digits[k] in digits;
      var j :| 0 <= j < |body| && body[j] == digits[k];
    }
  }

  /** `int()` of a plain string of digits is its decimal value. */
  lemma PyIntOfDigits(s: string)
    requires |s| > 0 && AllDigits(s)
    ensures PyInt(s) == Some(DecimalValue(s))
  {
    StripKeepsTrimmed(s);
    SignedIntOfDigits(s);
    assert forall k | 0 <= k < |s| :: !IsInfoSeparator(s[k]) by {
      forall k | 0 <= k < |s| ensures !IsInfoSeparator(s[k]) {
        assert IsAsciiDigit(s[k]);
      }
    }
  }

  lemma SignedIntOfDigits(s: string)
    requires |s| > 0 && AllDigits(s)
    ensures SignedInt(s) == Some(DecimalValue(s))
  {
    DigitsAreIntBody(s);
    assert IsAsciiDigit(s[0]);
    assert UnsignedInt(s) == Some(DecimalValue(s));
  }

  /** A plain string of digits is an `IntBody` with no underscore to drop. */
  lemma DigitsAreIntBody(s: string)
    requires |s| > 0 && AllDigits(s)
    ensures IntBody(s) && RemoveChar(s, '_') == s
  {
    assert '_' !in s;
  }

  /** `strip()` would remove the leading U+001C, but `int()` rejects it. */
  lemma PyIntRejectsSeparator()
    ensures PyInt("\U{1C}5") == None
  {
    assert IsInfoSeparator("\U{1C}5"[0]);
  }

  /** `int(str(n)) == n`. */
  lemma PyIntDecimal(n: nat)
    ensures PyInt(Decimal(n)) == Some(n)
  {
    PyIntOfDigits(Decimal(n));
  }
}

=== FILE: textorder.dfy ===
/**
 * The order `sorted()` and SQLite's `ORDER BY` (BINARY collation over UTF-8)
 * put strings in: lexicographic by code point, a proper prefix first.
 */
module TextOrder {

  predicate LexLess(a: string, b: string)
  {
    |b| > 0 && (|a| == 0 || a[0] < b[0] || (a[0] == b[0] && LexLess(a[1..], b[1..])))
  }

  lemma {:induction false} LexLessIrreflexive(a: string)
    ensures !LexLess(a, a)
  {
    if |a| > 0 {
      LexLessIrreflexive(a[1..]);
    }
  }

  lemma {:induction false} LexLessTransitive(a: string, b: string, c: string)
    requires LexLess(a, b) && LexLess(b, c)
    ensures LexLess(a, c)
  {
    if |a| > 0 && a[0] == b[0] && b[0] == c[0] {
      LexLessTransitive(a[1..], b[1..], c[1..]);
    }
  }

  lemma {:induction false} LexLessTotal(a: string, b: string)
    requires a != b
    ensures LexLess(a, b) || LexLess(b, a)
  {
    if |a| > 0 && |b| > 0 && a[0] == b[0] {
      assert a == [a[0]] + a[1..] && b == [b[0]] + b[1..];
      LexLessTotal(a[1..], b[1..]);
    }
  }

  /** Strictly increasing, hence also free of duplicates. */
  predicate StrictlySorted(xs: seq<string>)
  {
    forall i, j | 0 <= i < j < |xs| :: LexLess(xs[i], xs[j])
  }

  /** Adds `x` to a strictly sorted sequence, keeping it strictly sorted. */
  function Insert(x: string, xs: seq<string>): (r: seq<string>)
    requires StrictlySorted(xs)
    ensures StrictlySorted(r)
    ensures forall y :: y in r <==> y == x || y in xs
  {
    if |xs| == 0 then [x]
    else if x == xs[0] then xs
    else if LexLess(x, xs[0]) then
      assert forall j | 0 < j < |xs| :: LexLess(x, xs[j]) by {
        forall j | 0 < j < |xs| ensures LexLess(x, xs[j]) {
          LexLessTransitive(x, xs[0], xs[j]);
        }
      }
      [x] + xs
    else
      LexLessTotal(x, xs[0]);
      var tail := Insert(x, xs[1..]);
      var r := [xs[0]] + tail;
      assert forall j | 0 <= j < |tail| :: LexLess(xs[0], tail[j]) by {
        forall j | 0 <= j < |tail| ensures LexLess(xs[0], tail[j]) {
          assert tail[j] in tail;
          if tail[j] != x {
            var k :| 0 <= k < |xs[1..]| && xs[1..][k] == tail[j];
            assert xs[k + 1] == tail[j];
          }
        }
      }
      r
  }

  /** The distinct elements of `xs` in increasing order: Python's `sorted(set(xs))`. */
  function SortedDistinct(xs: seq<string>): (r: seq<string>)
    ensures StrictlySorted(r)
    ensures forall y :: y in r <==> y in xs
  {
    if |xs| == 0 then [] else Insert(xs[|xs| - 1], SortedDistinct(xs[..|xs| - 1]))
  }

  lemma NonEmptyHasMember(s: seq<string>)
    ensures |s| > 0 <==> exists y :: y in s
  {
    if |s| > 0 {
      assert s[0] in s;
    }
  }

  /**
   * A finite set of strings has exactly one strictly sorted enumeration:
   * two strictly sorted sequences with the same elements are equal.
   */
  lemma {:induction false} SortedUnique(xs: seq<string>, ys: seq<string>)
    requires StrictlySorted(xs) && StrictlySorted(ys)
    requires forall y :: y in xs <==> y in ys
    ensures xs == ys
  {
    NonEmptyHasMember(xs);
    NonEmptyHasMember(ys);
    if |xs| > 0 && |ys| > 0 {
      assert xs[0] == ys[0] by {
        assert xs[0] in ys && ys[0] in xs;
        var k :| 0 <= k < |ys| && ys[k] == xs[0];
        var m :| 0 <= m < |xs| && xs[m] == ys[0];
        if k > 0 {
          if m == 0 {
            LexLessIrreflexive(xs[0]);
          } else {
            LexLessTransitive(xs[0], ys[0], xs[0]);
            LexLessIrreflexive(xs[0]);
          }
        }
      }
      forall y ensures y in xs[1..] <==> y in ys[1..] {
        if y in xs[1..] {
          var m :| 1 <= m < |xs| && xs[m] == y;
          assert LexLess(xs[0], y);
          LexLessIrreflexive(y);
          assert y in ys;
        }
        if y in ys[1..] {
          var m :| 1 <= m < |ys| && ys[m] == y;
          assert LexLess(ys[0], y);
          LexLessIrreflexive(y);
          assert y in xs;
        }
      }
      SortedUnique(xs[1..], ys[1..]);
      assert xs == [xs[0]] + xs[1..] && ys == [ys[0]] + ys[1..];
    }
  }
}

=== FILE: validators.dfy ===
/**
 * The two format checks of the application (crudapp.py, `is_valid_email` and
 * `is_valid_phone`). Each is given twice: as a declarative reading of its regular
 * expression, and as an executable scanner proved to agree with it.
 *
 * `re.match` anchors at the start; `$` matches at the end of the text or just
 * before a single trailing newline. `[A-Za-z]` is ASCII; `\d` is taken to be the
 * ASCII digits `0`..`9`.
 */
module Validators {
  import opened Strings

  // ---------------------------------------------------------------------
  // Email: ^[A-Za-z0-9._%+-]+@[A-Za-z0-9.-]+\.[A-Za-z]{2,}$
  // ---------------------------------------------------------------------

  predicate IsLocalChar(c: char) {
    IsAsciiLetter(c) || IsAsciiDigit(c) || c == '.' || c == '_' || c == '%' || c == '+' || c == '-'
  }

  predicate IsDomainChar(c: char) {
    IsAsciiLetter(c) || IsAsciiDigit(c) || c == '.' || c == '-'
  }

  predicate AllLocal(s: string) { forall i | 0 <= i < |s| :: IsLocalChar(s[i]) }

  predicate AllDomain(s: string) { forall i | 0 <= i < |s| :: IsDomainChar(s[i]) }

  predicate AllLetters(s: string) { forall i | 0 <= i < |s| :: IsAsciiLetter(s[i]) }

  /**
   * `s` reads as local "@" domain "." tld with the `@` at `at` and the `.` at `dot`:
   * one or more local characters, one or more domain characters, two or more letters.
   */
  predicate EmailSplit(s: string, at: int, dot: int) {
    && 1 <= at && at + 2 <= dot && dot + 3 <= |s|
    && s[at] == '@' && s[dot] == '.'
    && AllLocal(s[..at]) && AllDomain(s[at + 1..dot]) && AllLetters(s[dot + 1..])
  }

  /** The whole of `s` matches the pattern body (without the anchor subtlety of `$`). */
  predicate EmailShape(s: string) {
    exists at, dot | 0 <= at < |s| && 0 <= dot < |s| :: EmailSplit(s, at, dot)
  }

  /** `re.match(pattern, s) is not None` for the email pattern. */
  predicate EmailPatternMatches(s: string) {
    || EmailShape(s)
    || (|s| > 0 && s[|s| - 1] == '\n' && EmailShape(s[..|s| - 1]))
  }

  /**
   * The same language described by its parts: exactly one `@`, a non-empty
   * local part over the local characters, a domain over the domain characters
   * whose last `.` has text before it and two or more letters after it.
   */
  predicate EmailParts(s: string) {
    exists at | 0 <= at < |s| ::
      && s[at] == '@'
      && (forall j | 0 <= j < |s| && s[j] == '@' :: j == at)
      && at >= 1 && AllLocal(s[..at])
      && AllDomain(s[at + 1..])
      && exists dot | at + 1 < dot < |s| ::
           && s[dot] == '.'
           && (forall j | dot < j < |s| :: s[j] != '.')
           && |s| - dot - 1 >= 2 && AllLetters(s[dot + 1..])
  }

  lemma DomainSlice(s: string, lo: int, hi: int)
    requires 0 <= lo <= hi <= |s|
    requires forall j | lo <= j < hi :: IsDomainChar(s[j])
    ensures AllDomain(s[lo..hi])
  {
    var d := s[lo..hi];
    assert forall j | 0 <= j < |d| :: d[j] == s[lo + j];
  }

  lemma LettersSlice(s: string, lo: int)
    requires 0 <= lo <= |s|
    requires forall j | lo <= j < |s| :: IsAsciiLetter(s[j])
    ensures AllLetters(s[lo..])
  {
    var d := s[lo..];
    assert forall j | 0 <= j < |d| :: d[j] == s[lo + j];
  }

  /** What a split tells about each position of the text. */
  lemma SplitFacts(s: string, at: int, dot: int)
    requires EmailSplit(s, at, dot)
    ensures forall j | 0 <= j < at :: IsLocalChar(s[j]) && s[j] != '@'
    ensures !IsLocalChar(s[at])
    ensures forall j | at < j < |s| :: IsDomainChar(s[j]) && s[j] != '@'
    ensures forall j | dot < j < |s| :: IsAsciiLetter(s[j]) && s[j] != '.'
  {
    assert forall j | 0 <= j < at :: s[..at][j] == s[j];
    assert forall j | at < j < dot :: s[at + 1..dot][j - at - 1] == s[j];
    assert forall j | dot < j < |s| :: s[dot + 1..][j - dot - 1] == s[j];
  }

  /** The regular-expression reading and the by-parts reading accept the same strings. */
  lemma EmailShapeParts(s: string)
    ensures EmailShape(s) <==> EmailParts(s)
  {
    if EmailShape(s) {
      ShapeGivesParts(s);
    }
    if EmailParts(s) {
      PartsGiveShape(s);
    }
  }

  lemma ShapeGivesParts(s: string)
    requires EmailShape(s)
    ensures EmailParts(s)
  {
    var at, dot :| 0 <= at < |s| && 0 <= dot < |s| && EmailSplit(s, at, dot);
    SplitFacts(s, at, dot);
    DomainSlice(s, at + 1, |s|);
    assert s[at + 1..|s|] == s[at + 1..];
    assert |s| - dot - 1 >= 2;
  }

  lemma PartsGiveShape(s: string)
    requires EmailParts(s)
    ensures EmailShape(s)
  {
    var at :| 0 <= at < |s| && s[at] == '@'
      && (forall j | 0 <= j < |s| && s[j] == '@' :: j == at)
      && at >= 1 && AllLocal(s[..at])
      && AllDomain(s[at + 1..])
      && exists dot | at + 1 < dot < |s| ::
           && s[dot] == '.'
           && (forall j | dot < j < |s| :: s[j] != '.')
           && |s| - dot - 1 >= 2 && AllLetters(s[dot + 1..]);
    var dot :| at + 1 < dot < |s| && s[dot] == '.'
      && (forall j | dot < j < |s| :: s[j] != '.')
      && |s| - dot - 1 >= 2 && AllLetters(s[dot + 1..]);
    SplitFromParts(s, at, dot);
  }

  /** An `@` and a later `.` placed as the by-parts reading says split the text as the pattern does. */
  lemma SplitFromParts(s: string, at: int, dot: int)
    requires 1 <= at && at + 1 < dot && dot + 3 <= |s|
    requires s[at] == '@' && s[dot] == '.'
    requires AllLocal(s[..at]) && AllDomain(s[at + 1..]) && AllLetters(s[dot + 1..])
    ensures EmailSplit(s, at, dot)
  {
    assert forall j | at < j < |s| :: IsDomainChar(s[j]) by {
      var d := s[at + 1..];
      assert forall j | at < j < |s| :: s[j] == d[j - at - 1];
    }
    DomainSlice(s, at + 1, dot);
  }

  /** A matching address has exactly one `@`. */
  lemma EmailHasOneAt(s: string)
    requires EmailShape(s)
    ensures exists at | 0 <= at < |s| :: s[at] == '@' && forall j | 0 <= j < |s| && s[j] == '@' :: j == at
  {
    EmailShapeParts(s);
  }

  /** The local-part scan stopped at `i`: a split, if any, has its `@` exactly there. */
  lemma SplitAtLocalScanEnd(s: string, i: int, at: int, dot: int)
    requires 0 <= i <= |s| && AllLocal(s[..i]) && (i < |s| ==> !IsLocalChar(s[i]))
    requires EmailSplit(s, at, dot)
    ensures at == i
  {
    SplitFacts(s, at, dot);
    assert forall j | 0 <= j < i :: s[..i][j] == s[j];
  }

  /** Executable check of `EmailShape`: scan the local part, then the domain, then the final label. */
  method MatchEmailShape(s: string) returns (ok: bool)
    ensures ok <==> EmailShape(s)
  {
    var i := 0;
    while i < |s| && IsLocalChar(s[i])
      invariant 0 <= i <= |s|
      invariant AllLocal(s[..i])
    {
      i := i + 1;
    }
    if i == 0 || i == |s| || s[i] != '@' {
      forall at, dot | 0 <= at < |s| && 0 <= dot < |s| ensures !EmailSplit(s, at, dot) {
        if EmailSplit(s, at, dot) {
          SplitAtLocalScanEnd(s, i, at, dot);
          assert false;
        }
      }
      return false;
    }
    var k := i + 1;
    var lastDot := -1;
    while k < |s|
      invariant i + 1 <= k <= |s|
      invariant forall j | i < j < k :: IsDomainChar(s[j])
      invariant lastDot == -1 || (i < lastDot < k && s[lastDot] == '.')
      invariant forall j | (if lastDot == -1 then i else lastDot) < j < k :: s[j] != '.'
    {
      if !IsDomainChar(s[k]) {
        forall at, dot | 0 <= at < |s| && 0 <= dot < |s| ensures !EmailSplit(s, at, dot) {
          if EmailSplit(s, at, dot) {
            SplitAtLocalScanEnd(s, i, at, dot);
            SplitFacts(s, at, dot);
            assert false;
          }
        }
        return false;
      }
      if s[k] == '.' {
        lastDot := k;
      }
      k := k + 1;
    }
    // Any split must put its dot at the last `.` of the domain.
    if lastDot < i + 2 || |s| < lastDot + 3 {
      forall at, dot | 0 <= at < |s| && 0 <= dot < |s| ensures !EmailSplit(s, at, dot) {
        if EmailSplit(s, at, dot) {
          SplitAtLocalScanEnd(s, i, at, dot);
          SplitFacts(s, at, dot);
          assert false;
        }
      }
      return false;
    }
    var m := lastDot + 1;
    while m < |s|
      invariant lastDot + 1 <= m <= |s|
      invariant forall j | lastDot < j < m :: IsAsciiLetter(s[j])
    {
      if !IsAsciiLetter(s[m]) {
        forall at, dot | 0 <= at < |s| && 0 <= dot < |s| ensures !EmailSplit(s, at, dot) {
          if EmailSplit(s, at, dot) {
            SplitAtLocalScanEnd(s, i, at, dot);
            SplitFacts(s, at, dot);
            assert false;
          }
        }
        return false;
      }
      m := m + 1;
    }
    assert AllLocal(s[..i]);
    DomainSlice(s, i + 1, lastDot);
    LettersSlice(s, lastDot + 1);
    assert EmailSplit(s, i, lastDot);
    ok := true;
  }

  /** `is_valid_email(s)`. */
  method IsValidEmail(s: string) returns (ok: bool)
    ensures ok <==> EmailPatternMatches(s)
  {
    ok := MatchEmailShape(s);
    if !ok && |s| > 0 && s[|s| - 1] == '\n' {
      ok := MatchEmailShape(s[..|s| - 1]);
    }
  }

  // ---------------------------------------------------------------------
  // Phone: ^\+?\d{10,15}$
  // ---------------------------------------------------------------------

  /** An optional `+`, then 10 to 15 digits, and nothing else. */
  predicate PhoneShape(s: string) {
    || (10 <= |s| <= 15 && AllDigits(s))
    || (|s| > 0 && s[0] == '+' && 10 <= |s| - 1 <= 15 && AllDigits(s[1..]))
  }

  /** `re.match(pattern, s) is not None` for the phone pattern. */
  predicate PhonePatternMatches(s: string) {
    || PhoneShape(s)
    || (|s| > 0 && s[|s| - 1] == '\n' && PhoneShape(s[..|s| - 1]))
  }

  /** Executable check of `PhoneShape`: skip an optional `+`, count, then scan the digits. */
  method MatchPhoneShape(s: string) returns (ok: bool)
    ensures ok <==> PhoneShape(s)
    ensures ok ==> 10 <= |s| <= 16 && forall j | 0 < j < |s| :: s[j] != '+'
  {
    var start := if |s| > 0 && s[0] == '+' then 1 else 0;
    if |s| - start < 10 || |s| - start > 15 {
      return false;
    }
    var i := start;
    while i < |s|
      invariant start <= i <= |s|
      invariant AllDigits(s[start..i])
    {
      if !IsAsciiDigit(s[i]) {
        assert s[start..][i - start] == s[i];
        return false;
      }
      assert s[start..i + 1] == s[start..i] + [s[i]];
      i := i + 1;
    }
    assert s[start..] == s[start..i];
    if start == 1 {
      assert s[1..] == s[start..];
    } else {
      assert s == s[start..];
    }
    ok := true;
  }

  /** `is_valid_phone(s)`. */
  method IsValidPhone(s: string) returns (ok: bool)
    ensures ok <==> PhonePatternMatches(s)
    ensures ok ==> 10 <= |s| <= 17
  {
    ok := MatchPhoneShape(s);
    if !ok && |s| > 0 && s[|s| - 1] == '\n' {
      ok := MatchPhoneShape(s[..|s| - 1]);
    }
  }

  /** The phone language: 10 to 16 characters, and a `+` can only come first. */
  lemma PhoneShapeBounds(s: string)
    requires PhoneShape(s)
    ensures 10 <= |s| <= 16
    ensures forall j | 0 < j < |s| :: s[j] != '+'
  {
    if !(10 <= |s| <= 15 && AllDigits(s)) {
      assert forall j | 0 < j < |s| :: s[j] == s[1..][j - 1];
    }
  }
}
